=== FILE: README.md ===
# Temporal selection in the Feast Trino offline store

A Dafny model of the query compiler in `feast-trino/trino.py`. The compiler has three parts,
and the model covers each.

- **Snapshot query** (`pull_latest_from_table_or_query`). It builds the partition, order and
  select clauses and the dummy-entity column. The model renders them into the query text and
  gives the query its meaning: keep the rows whose event time is in `[start, end]`, then keep
  the latest row of every join-key group.
- **Point-in-time join** (`MULTIPLE_FEATURE_VIEW_POINT_IN_TIME_JOIN`). Each common table
  expression of the template is a pure function over sequences of rows, which stand for SQL
  bags:
  - the entity-row unique id;
  - the per-view entity frame;
  - the coarse pre-filter of the source;
  - the as-of join with its ttl window;
  - the `MAX(created_timestamp)` dedup;
  - the `ROW_NUMBER` latest selection;
  - the re-join to `__base`;
  - the final left join.

  The properties proved run from each step's own contract up to as-of correctness of the whole
  query over any number of feature views. Every output row belongs to an entity row and has
  one column per feature of every view, in view order. The columns of each view are all NULL
  when no source row of that view is eligible for the row. Otherwise they are the feature
  values of an eligible row that ranks first by event time, ties broken by created time (the
  model's feature values are never NULL themselves).
  The theorem assumes two things. First, the unique ids of the entity table do not collide.
  The id is a `CONCAT` with no separator, and `PointInTime.UniqueIdCollision` shows two
  different key tuples with the same id. Two lemmas discharge this assumption. One covers
  entity rows that all share one key tuple. The other covers key columns whose values all have
  the same length, such as fixed-width codes. Second, every source row has one value per
  entity column and per feature of its view.
- **Retrieval job text** (`to_sql`, `to_trino`). The snapshot job's text is stated in terms of
  the compiler's inputs: it opens with the select list and the dummy-column line, and it
  contains the `ROW_NUMBER() OVER(...)` window, the source and the time-window filter. It
  ends with the filter that keeps the first-numbered row. The retrieval text also covers the
  destination-table name
  `<project>.<dataset>.historical_<YYYYMMDD>_<suffix>` and the
  `CREATE TABLE <dest> AS (<query>)` statement. For any project and dataset names, the day's
  stamp sits at a fixed offset of the name, after the fixed prefix and before `_<suffix>`. When
  the names contain no dot, the name also splits back into its four parts at the dots. The
  query can always be read back from the statement. The day and the UUID text are
  parameters.

Files:
- `common.dfy` holds the shared helpers: an Option type, `str.join`, duplicate-free
  sequences, and decimal text.
- `ranking.dfy` holds the `ORDER BY event DESC[, created DESC]` order.
- `schema.dfy` holds the query context, the row types, and output feature names.
- `snapshot.dfy`, `point_in_time.dfy` and `retrieval.dfy` hold the three parts above.
- `scenario.dfy` holds a worked example of the as-of join.

Modelling choices:
- Timestamps are integer seconds. A view's `ttl` of 0 means an unbounded look-back.
- `CAST(ts AS VARCHAR)` is rendered as decimal text.
- Column values are compared for equality only, so strings stand for them.
- An `if created_timestamp_column:` test is Python or Jinja truthiness, so `None` and `""`
  both count as absent (`Common.Truthy`).
- Where SQL leaves the choice among tied rows open (`ROW_NUMBER` over equal timestamps),
  contracts say only that the kept row is maximal.
- The exported table's first name component is the client's `project`, as the code has it,
  not a catalog name. The client class is not part of this model, so `project` is a
  parameter of the job.

## Model

| member | source | states |
|---|---|---|
| Common.IntTextRoundTrip | feast-trino/trino.py:276 | the decimal text of a timestamp reads back to that timestamp, so the cast loses nothing |
| Common.IntTextInjective | feast-trino/trino.py:276 | different timestamps cast to different texts |
| Ranking.AtLeastIsTotalPreorder | feast-trino/trino.py:368-371 | the descending (event, created) order is reflexive, total and transitive, and two rows rank above each other exactly when they tie on the ordered columns |
| Ranking.Top | feast-trino/trino.py:368-378 | the row `ROW_NUMBER() ... = 1` keeps is one of the rows and ranks at least as high as every row |
| Schema.OutputFeatureNameRoundTrip | feast-trino/trino.py:316 | a full feature name `<view>__<feature>` gives back the feature name when the view prefix is stripped; the bare mode keeps the name |
| Schema.FeatureColumns | feast-trino/trino.py:315-317 | one output column per feature, in feature order; with full names each strips back to its feature, without them the names are the features themselves |
| Snapshot.PartitionClauseShape | feast-trino/trino.py:121-125 | the partition clause is empty exactly when the joined key text is empty (no keys, or one empty key); otherwise it is `PARTITION BY ` followed by the comma-joined keys |
| Snapshot.TimestampColumns | feast-trino/trino.py:126-128 | the event column comes first; a second column is added exactly when the created column is truthy, and it is that column |
| Snapshot.OrderClauseIsDescendingList | feast-trino/trino.py:129 | the order text is the comma-joined list of the columns, each followed by ` DESC` |
| Snapshot.OrderClauseOfTimestamps | feast-trino/trino.py:126-129 | the order is `<event> DESC, <created> DESC` with a truthy created column and `<event> DESC` otherwise |
| Snapshot.FieldListOrder | feast-trino/trino.py:130-132 | the select list is the join keys, then the features, then the timestamp columns, each group comma-joined |
| Snapshot.FieldListOrderNoKeys | feast-trino/trino.py:130-132 | without join keys the select list starts with the features |
| Snapshot.DummyColumn | feast-trino/trino.py:139 | the dummy-entity column is present exactly when there are no join keys, and then it is `, '' AS __dummy_id` |
| Snapshot.CompileSnapshot | feast-trino/trino.py:119-139 | the compiled clauses: partition empty exactly for no keys or `[""]`, dummy column exactly for no keys, and the descending order with or without the created column |
| Snapshot.RenderSnapshot | feast-trino/trino.py:136-147 | the query text opens with the select list and the dummy-column line. It contains the inner select, the `ROW_NUMBER() OVER(<partition> ORDER BY <order>) AS _feast_row` window, the source and the `BETWEEN` filter, and it ends by keeping row 1 |
| Snapshot.InWindow | feast-trino/trino.py:144 | a row is kept exactly when its event time lies in the inclusive `[start, end]` |
| Snapshot.GroupTop | feast-trino/trino.py:142-146 | the rank-1 row of one key group belongs to the group and is at least as recent as every row of it |
| Snapshot.GroupTops | feast-trino/trino.py:142-146 | one rank-1 row per requested key group, in that order, each maximal in its group |
| Snapshot.LatestPerKey | feast-trino/trino.py:141-146 | one row per distinct key tuple of the input, every key tuple covered, each kept row an input row that is maximal in its group |
| Snapshot.SnapshotRows | feast-trino/trino.py:140-146 | the snapshot keeps only in-window rows, exactly one per key tuple present in the window, and each kept row is maximal by (event, created) among that tuple's in-window rows |
| Snapshot.NoJoinKeysAtMostOneRow | feast-trino/trino.py:139-146 | with no join keys there is a single partition, so the snapshot has at most one row |
| PointInTime.UniqueId | feast-trino/trino.py:270-280 | the unique id is the key values concatenated in order, followed by the timestamp text |
| PointInTime.UniqueIdWithoutEntities | feast-trino/trino.py:278-279 | a view without entities uses the timestamp text alone |
| PointInTime.UniqueIdSeparatesTimestamps | feast-trino/trino.py:272-277 | for the same key values, equal ids mean equal timestamps |
| PointInTime.UniqueIdCollision | feast-trino/trino.py:272-277 | the id is not injective in the key values: `["a","bc"]` and `["ab","c"]` share an id |
| PointInTime.UniqueIdsDistinctForOneKey | feast-trino/trino.py:272-277 | when all entity rows have the same key values for a view, no two of their projections share an id |
| PointInTime.UniqueIdsDistinctForFixedWidthKeys | feast-trino/trino.py:272-277 | when, column by column, all entity rows' key values have the same length, no two of their projections share an id |
| PointInTime.ConcatOfSameLengths | feast-trino/trino.py:272-277 | separator-less concatenations of pieces of equal lengths, each followed by a tail, are equal only when the pieces and the tails are equal |
| PointInTime.ProjectEntities | feast-trino/trino.py:285-290 | each entity row's projection (keys, timestamp, id) is in the result, and nothing else is |
| PointInTime.EntityFrame | feast-trino/trino.py:285-295 | `GROUP BY` keeps each projection exactly once: duplicate-free, every entity row's projection present, nothing else |
| PointInTime.MaxEntityTs | feast-trino/trino.py:319 | `MAX(entity_timestamp)` bounds every entity timestamp from above and is attained |
| PointInTime.MinEntityTs | feast-trino/trino.py:321 | `MIN(entity_timestamp)` bounds every entity timestamp from below and is attained |
| PointInTime.PreFilter | feast-trino/trino.py:318-322 | a source row passes exactly when the entity table is non-empty, its event time is at most the maximum entity time, and, unless ttl is 0, at least the minimum entity time minus ttl |
| PointInTime.JoinSourceRow | feast-trino/trino.py:329-338 | the rows one source row contributes are exactly its pairs with the frame rows it is as-of eligible for |
| PointInTime.Base | feast-trino/trino.py:324-339 | `__base` holds exactly the (source, entity) pairs with equal keys, event time at most the entity time, and, unless ttl is 0, at least the entity time minus ttl |
| PointInTime.EligibleRowsPassScanWindow | feast-trino/trino.py:319-335 | pre-filter soundness: a source row eligible for some entity row passes the coarse window |
| PointInTime.OutsideScanWindowJoinsNothing | feast-trino/trino.py:319-335 | a source row outside the coarse window joins no entity row |
| PointInTime.PreFilterKeepsBase | feast-trino/trino.py:310-339 | `__base` is the same with and without the pre-filter |
| PointInTime.GroupMaxOf | feast-trino/trino.py:347-354 | the group row of one (id, event time) key carries that key and the group's maximal created time |
| PointInTime.GroupMaxUnique | feast-trino/trino.py:349-353 | a group has one maximal created time |
| PointInTime.MaxCreatedDedup | feast-trino/trino.py:346-355 | `__dedup` is duplicate-free and holds exactly the (id, event time, max created) row of every group of `__base` |
| PointInTime.JoinDedup | feast-trino/trino.py:373-376 | the join with `__dedup` keeps exactly the base rows whose created time is their group's maximum |
| PointInTime.RankInput | feast-trino/trino.py:366-376 | with a created column, the rows ranked are exactly the base rows whose created time is maximal in their (id, event time) group; without one, every base row is ranked |
| PointInTime.RankInputDominates | feast-trino/trino.py:346-376 | every base row is matched or beaten, within its id, by a ranked row, so the dedup join does not drop a better row |
| PointInTime.WithUid | feast-trino/trino.py:411 | the rows under one id are exactly those with that id, and there are none exactly when no row has it |
| PointInTime.LatestRows | feast-trino/trino.py:360-379 | `__latest` has one row per id present in its input, no id twice, and each row projects a maximal row of its id |
| PointInTime.Cleaned | feast-trino/trino.py:384-395 | `__cleaned` holds exactly the base rows whose (id, event[, created]) equals a `__latest` row |
| PointInTime.SameLatestKeyRanksAlike | feast-trino/trino.py:384-394 | base rows that agree on the `USING` columns rank alike against any row |
| PointInTime.LatestIsMaximalOverBase | feast-trino/trino.py:360-379 | the latest row of an id is maximal over all of `__base`, not only over the deduplicated rows |
| PointInTime.LatestCoversBase | feast-trino/trino.py:360-379 | every id of `__base` has its row in `__latest` |
| PointInTime.CleanedRowRanksFirst | feast-trino/trino.py:360-395 | a cleaned row is a base row and ranks at least as high as every base row of its id |
| PointInTime.CleanedCoversBase | feast-trino/trino.py:384-395 | every id of `__base` keeps at least one row in `__cleaned` |
| PointInTime.EligibleRowIsFound | feast-trino/trino.py:310-395 | an entity row with an eligible source row finds a cleaned row under its id |
| PointInTime.FoundRowIsLatestEligible | feast-trino/trino.py:310-395 | without id collisions, a cleaned row under an entity row's id comes from an eligible source row that ranks first among all eligible rows |
| PointInTime.NoEligibleRowNoMatch | feast-trino/trino.py:324-395 | without id collisions, an entity row with no eligible source row has no cleaned row under its id |
| PointInTime.LeftJoinRow | feast-trino/trino.py:404-411 | one left row yields one row per cleaned row under its id, each extended with that row's features, or a single NULL-extended row when there is none; every output row is one of these |
| PointInTime.LeftJoinView | feast-trino/trino.py:404-411 | the left join has at least as many rows as its left side, and every output row comes from a left row |
| PointInTime.LeftJoinKeepsEveryRow | feast-trino/trino.py:404-411 | every left row reaches the output |
| PointInTime.WithUidAtMostOne | feast-trino/trino.py:411 | when `__cleaned` has no id twice, a lookup by id finds at most one row |
| PointInTime.LeftJoinWithoutTiesKeepsRows | feast-trino/trino.py:404-411 | when `__cleaned` has no id twice, the left join returns the left rows one for one, in order |
| PointInTime.Assemble | feast-trino/trino.py:401-412 | the final select has at least one row per entity row, every entity row appears, and every output row belongs to an entity row |
| PointInTime.AssembleWithoutTiesKeepsRows | feast-trino/trino.py:401-412 | when no view has an id twice in `__cleaned`, the output is the entity table row for row |
| PointInTime.LeftJoinedWithEligibleRow | feast-trino/trino.py:404-411 | without id collisions in the view, and with an eligible source row, the left join appends to the left row's features those of an eligible row that ranks first |
| PointInTime.LeftJoinedWithoutEligibleRow | feast-trino/trino.py:404-411 | without id collisions in the view, and without an eligible source row, the left join appends NULLs to the left row's features |
| PointInTime.CleanedRowComesFromSource | feast-trino/trino.py:324-395 | every row of `__cleaned` comes from the view's source table |
| PointInTime.LeftJoinedWidth | feast-trino/trino.py:404-411 | over a well-formed source, one left join appends exactly one column per feature of the view |
| PointInTime.AssembleLastView | feast-trino/trino.py:401-412 | the final select over several views is the one over all but the last view, left-joined with the last view's `__cleaned` |
| PointInTime.LeftJoinViewWidth | feast-trino/trino.py:404-411 | left-joining one more well-formed view widens every row by that view's feature count |
| PointInTime.AssembleWidth | feast-trino/trino.py:401-412 | over well-formed sources, every output row has as many feature columns as all views have features together |
| PointInTime.AsOfRowSlice | feast-trino/trino.py:401-412 | in an as-of row, the columns between the feature counts of the first i views and of the first i+1 views are the as-of features of view i |
| PointInTime.LeftJoinedIsAsOf | feast-trino/trino.py:404-411 | without id collisions in the view and over a well-formed source, one left join keeps the left row's features as a prefix and appends the as-of features of the view |
| PointInTime.LeftJoinViewAsOf | feast-trino/trino.py:404-411 | without id collisions in any view and over well-formed sources, left-joining one more view keeps every row as-of, now over that view as well |
| PointInTime.AssembleAsOf | feast-trino/trino.py:262-413 | without id collisions in any view and over well-formed sources, every row of the final select is the as-of row of its entity row over all views |
| PointInTime.AsOfEveryView | feast-trino/trino.py:262-413 | as-of correctness of the whole query: every output row belongs to an entity row and has one column per feature of every view. View after view, the columns are NULL when no source row is eligible, and otherwise those of an eligible row with the latest event time, ties broken by created time |
| PointInTime.ViewColumnsAsOf | feast-trino/trino.py:262-413 | for any output row and any view i, the columns of view i are NULL when no source row of that view is eligible, and otherwise the features of the latest eligible row |
| PointInTime.SingleViewAsOf | feast-trino/trino.py:262-413 | as-of correctness for one view: every output row belongs to an entity row; its features are NULL when no source row is eligible, and otherwise those of an eligible row with the latest event time, ties broken by created time |
| Scenario.AsOfScenario | feast-trino/trino.py:319-411 | for ttl one hour and rows at 10:00 (5) and 10:30 (7), requests at 10:45, 09:00 and 10:15 get 7, NULL and 5 |
| Retrieval.ToSql | feast-trino/trino.py:75-77 | `to_sql` returns the job's query unchanged, the text `to_trino` wraps |
| Retrieval.DateStamp | feast-trino/trino.py:94 | `%Y%m%d` is eight digits that read back to the date |
| Retrieval.DateStampInjective | feast-trino/trino.py:94 | different days give different stamps |
| Retrieval.RandomSuffix | feast-trino/trino.py:95 | the suffix is a prefix of the UUID text, seven characters long when the text has at least seven |
| Retrieval.DestinationRoundTrip | feast-trino/trino.py:96 | project, dataset, stamp and suffix can be read back from the destination name when project and dataset contain no dot |
| Retrieval.CreateTableAsRoundTrip | feast-trino/trino.py:97 | the exported query can be read back from the `CREATE TABLE ... AS (...)` statement |
| Retrieval.ToTrino | feast-trino/trino.py:75-99 | the statement wraps exactly the query `to_sql` returns. For any names, the destination is `<project>.<dataset>.historical_`, the day's stamp, then `_` and the suffix. For dot-free project and dataset names it parses back to those four parts |
| Retrieval.ExportReadsBack | feast-trino/trino.py:94-97 | for any stamp of eight characters and any suffix, the query reads back from the statement and the stamp and suffix sit at fixed offsets of the destination |
| Retrieval.ExportsOnDifferentDaysDiffer | feast-trino/trino.py:94-96 | exports of one job on different days go to different tables, whatever the project and dataset names |
| Retrieval.PullLatestFromTableOrQuery | feast-trino/trino.py:104-155 | the snapshot job never qualifies feature names and uses the store's dataset. Its text opens with the keys, features and timestamp columns, then a dummy-column line that is `, '' AS __dummy_id` exactly when there are no join keys. It contains `ROW_NUMBER() OVER(<partition> ORDER BY <order>)`, where the partition is empty for no keys (or one empty key) and otherwise partitions by the keys, and the order is `<event> DESC[, <created> DESC]`. It also contains the source and the `BETWEEN` filter on the given bounds, and it ends by keeping row 1 |

## Left out

- Trino client execution and result conversion (`_to_df_internal`, `_to_arrow_internal`,
  `_get_trino_client`, and the `execute_query` call of `to_trino`). These are network I/O and
  pandas/pyarrow work. `to_trino` is modelled by the statement it would execute and the name it
  returns.
- `to_trino`'s `timeout` and `retry_cadence` parameters: the body never reads them.
- Entity upload and schema inference (`_upload_entity_df_and_get_entity_schema`,
  `_get_table_reference_for_new_entity`). These issue network statements and use pandas
  dtypes.
- `get_historical_features` and the `offline_utils` calls: the query context builder, the
  Jinja rendering of the template, and timestamp and join-key inference. They are not part of
  this model. The template's meaning is modelled instead of its rendered text.
- The template's whitespace and its text are not reproduced.
  `PointInTime.OutputRow` keeps the entity row and the feature values. The
  `final_output_feature_names` projection and the `entity_selections` renaming are out of the
  model, and the naming mode enters only through `Schema.FeatureColumns`.
- The `isinstance` checks on the data source and the store config. They are runtime type
  dispatch, and the model's types already fix them.
- On-demand feature views and the pydantic config class. The store settings are a record of
  the one field the compiler reads, `dataset`. The connection settings (host, port, catalog)
  reach only the Trino client, which is left out above.
- NULL join keys, NULL created timestamps and NULL feature values. Rows carry plain strings
  and integers. A NULL feature value on the latest eligible row would be copied into the
  output as NULL, so the as-of theorems' "NULL exactly when nothing is eligible" holds only
  for non-NULL feature values.
- SQL timestamp and interval types. Timestamps are integer seconds. The `BETWEEN TIMESTAMP`
  bounds of the snapshot query are kept as the interpolated datetime text.
- Retrieval.ToTrino: the destination is split back into its four parts only when the project
  and dataset names contain no dot, because a dotted name makes the split at dots ambiguous.
  For other names the contract fixes the prefix, the stamp and the suffix by position.
- Retrieval.DateStamp: requires a four-digit year. It does not model `strftime` for years
  before 1000, which the current date never reaches.
- PointInTime.LeftJoinView: the row order is the left rows' order. SQL does not promise an
  order for the final select, so only the contents are meaningful.
- PointInTime.AsOfEveryView: assumes that no two entity projections share a unique id in any
  view. The separator-less `CONCAT` does not guarantee this, and with a collision one entity
  row can receive another's features. It also assumes that every source row has one value per
  entity column and per feature of its view, as the view's `SELECT` list makes it in SQL.
- PointInTime.ViewColumnsAsOf: assumes the same as `PointInTime.AsOfEveryView`.
- PointInTime.SingleViewAsOf: assumes that no two entity projections share a unique id.
- PointInTime.LeftJoinedWithEligibleRow, PointInTime.LeftJoinedWithoutEligibleRow: assume that
  no two entity projections of the view share a unique id. Under a collision the SQL appends
  another entity row's features, or a row where NULLs are due.
- PointInTime.LeftJoinedIsAsOf: assumes distinct unique ids in the view and one value per entity
  column and per feature in every source row.
- PointInTime.LeftJoinViewAsOf: assumes distinct unique ids and well-formed source rows in every
  view.
- PointInTime.AssembleAsOf: assumes distinct unique ids and well-formed source rows in every
  view.
- PointInTime.LatestRows: when tied rows rank first, the SQL keeps an arbitrary one. The
  contract states only that the kept row is maximal, and a tie can leave several
  `__cleaned` rows under one id, which duplicates the entity row in the output
  (`PointInTime.LeftJoinRow` states one output row per cleaned row under the id, and
  `PointInTime.LeftJoinWithoutTiesKeepsRows` states the tie-free case).
- Snapshot.RenderSnapshot: states the opening lines, the pieces the text contains and its
  closing filter, but not where each piece sits in the middle of the text. No SQL evaluator
  connects the text to `Snapshot.SnapshotRows`, which is the stated meaning of the clauses.
- Retrieval.PullLatestFromTableOrQuery: states the same pieces of its text as
  `Snapshot.RenderSnapshot`, with the same limits.

=== FILE: common.dfy ===
/** Small value-level helpers shared by the query compiler model: an Option type,
    Python's `str.join`, duplicate-free sequences (SQL `GROUP BY` / `DISTINCT`) and
    the decimal rendering used where the compiler casts a number to text. */
module Common {

  datatype Option<+T> = None | Some(value: T)

  /** Python and Jinja truthiness of an optional column name: both `None` and `""` are false. */
  predicate Truthy(o: Option<string>) {
    o.Some? && o.value != ""
  }

  /** `sep.join(xs)` */
  function Join(sep: string, xs: seq<string>): string
  {
    if |xs| == 0 then ""
    else if |xs| == 1 then xs[0]
    else xs[0] + sep + Join(sep, xs[1..])
  }

  /** Joining one more element adds the separator and the element at the end. */
  lemma {:induction false} JoinSnoc(sep: string, xs: seq<string>, x: string)
    requires |xs| > 0
    ensures Join(sep, xs + [x]) == Join(sep, xs) + sep + x
  {
    if |xs| == 1 {
      assert (xs + [x])[1..] == [x];
    } else {
      assert (xs + [x])[1..] == xs[1..] + [x];
      JoinSnoc(sep, xs[1..], x);
    }
  }

  /** Joining a concatenation is joining the parts with one separator between them. */
  lemma {:induction false} JoinAppend(sep: string, a: seq<string>, b: seq<string>)
    requires |a| > 0 && |b| > 0
    ensures Join(sep, a + b) == Join(sep, a) + sep + Join(sep, b)
  {
    if |a| == 1 {
      assert (a + b)[1..] == b;
    } else {
      assert (a + b)[1..] == a[1..] + b;
      JoinAppend(sep, a[1..], b);
    }
  }

  /** With a non-empty separator the joined text is empty only for `[]` and `[""]`. */
  lemma JoinEmptyIff(sep: string, xs: seq<string>)
    requires |sep| > 0
    ensures Join(sep, xs) == "" <==> xs == [] || xs == [""]
  {
    if |xs| >= 2 {
      assert |Join(sep, xs)| >= |sep|;
    }
  }

  /** Every element occurs at most once: the result of `GROUP BY` over all selected columns. */
  predicate NoDups<T(==)>(s: seq<T>) {
    forall i, j :: 0 <= i < j < |s| ==> s[i] != s[j]
  }

  lemma NoDupsPair<T>(s: seq<T>, i: nat, j: nat)
    requires NoDups(s) && i < j < |s|
    ensures s[i] != s[j]
  {
  }

  /** A duplicate-free sequence whose elements are all the same has at most one element. */
  lemma NoDupsOfConstant<T>(s: seq<T>, x: T)
    requires NoDups(s)
    requires forall i :: 0 <= i < |s| ==> s[i] == x
    ensures |s| <= 1
  {
    if |s| >= 2 {
      NoDupsPair(s, 0, 1);
    }
  }

  /** The distinct elements of `s`, in order of first occurrence. */
  function Distinct<T(==,!new)>(s: seq<T>): (r: seq<T>)
    ensures NoDups(r)
    ensures forall x :: x in r <==> x in s
    ensures |r| <= |s|
  {
    if |s| == 0 then []
    else
      var init := s[..|s| - 1];
      assert s == init + [s[|s| - 1]];
      var rest := Distinct(init);
      if s[|s| - 1] in rest then rest else rest + [s[|s| - 1]]
  }

  predicate IsDigit(c: char) {
    '0' <= c <= '9'
  }

  predicate IsDigits(s: string) {
    forall i :: 0 <= i < |s| ==> IsDigit(s[i])
  }

  function DigitChar(d: nat): (c: char)
    requires d < 10
    ensures IsDigit(c) && c as int - '0' as int == d
  {
    ('0' as int + d) as char
  }

  /** The number a string of decimal digits denotes (leading zeros allowed). */
  function DigitsValue(s: string): nat
    requires IsDigits(s)
  {
    if |s| == 0 then 0
    else DigitsValue(s[..|s| - 1]) * 10 + (s[|s| - 1] as int - '0' as int)
  }

  function Pow10(n: nat): (r: nat)
    ensures r > 0
  {
    if n == 0 then 1 else 10 * Pow10(n - 1)
  }

  /** Zero-padded decimal text of `n` in exactly `width` digits (`strftime`'s `%m`, `%d`, ...). */
  function FixedDigits(n: nat, width: nat): (r: string)
    requires n < Pow10(width)
    ensures |r| == width && IsDigits(r)
    ensures DigitsValue(r) == n
  {
    if width == 0 then ""
    else
      var r := FixedDigits(n / 10, width - 1) + [DigitChar(n % 10)];
      assert r[..|r| - 1] == FixedDigits(n / 10, width - 1);
      r
  }

  /** Shortest decimal text of a natural number. */
  function NatText(n: nat): (r: string)
    ensures |r| > 0 && IsDigits(r)
    ensures DigitsValue(r) == n
  {
    if n < 10 then [DigitChar(n)]
    else
      var r := NatText(n / 10) + [DigitChar(n % 10)];
      assert r[..|r| - 1] == NatText(n / 10);
      r
  }

  /** Decimal text of an integer, with a leading `-` when it is negative. */
  function IntText(i: int): string
  {
    if i < 0 then "-" + NatText(-i) else NatText(i)
  }

  /** Reads back the text `IntText` writes; `None` for anything else. */
  function ParseInt(s: string): Option<int>
  {
    if |s| > 0 && s[0] == '-' && IsDigits(s[1..]) then Some(-(DigitsValue(s[1..]) as int))
    else if IsDigits(s) then Some(DigitsValue(s))
    else None
  }

  lemma IntTextRoundTrip(i: int)
    ensures ParseInt(IntText(i)) == Some(i)
  {
    if i < 0 {
      assert IntText(i)[1..] == NatText(-i);
    } else {
      var t := NatText(i);
      assert t[0] != '-' by { assert IsDigit(t[0]); }
    }
  }

  /** Different integers are rendered as different texts. */
  lemma IntTextInjective(i: int, j: int)
    requires IntText(i) == IntText(j)
    ensures i == j
  {
    IntTextRoundTrip(i);
    IntTextRoundTrip(j);
  }

  /** Position of the first occurrence of `c` in `s`. */
  function IndexOf(s: string, c: char): (r: Option<nat>)
    ensures r.None? ==> c !in s
    ensures r.Some? ==> r.value < |s| && s[r.value] == c && c !in s[..r.value]
  {
    if |s| == 0 then None
    else if s[0] == c then Some(0)
    else
      match IndexOf(s[1..], c)
      case None => None
      case Some(k) =>
        assert s[..k + 1] == [s[0]] + s[1..][..k];
        Some(k + 1)
  }

  /** Splits `s` at the first `c`: the text before it and the text after it. */
  function SplitOnce(s: string, c: char): Option<(string, string)>
  {
    match IndexOf(s, c)
    case None => None
    case Some(k) => Some((s[..k], s[k + 1..]))
  }

  lemma SplitOnceJoined(a: string, c: char, b: string)
    requires c !in a
    ensures SplitOnce(a + [c] + b, c) == Some((a, b))
  {
    var s := a + [c] + b;
    assert s[|a|] == c;
    assert s[..|a|] == a;
    assert s[|a| + 1..] == b;
  }

  // ---------------------------------------------------------------------------
  // Pieces of a text

  /** `piece` occurs somewhere in `text`. */
  predicate IsInfix<T(==)>(piece: seq<T>, text: seq<T>) {
    exists k :: 0 <= k <= |text| && piece <= text[k..]
  }

  lemma InfixAtEnd<T>(before: seq<T>, piece: seq<T>)
    ensures IsInfix(piece, before + piece)
  {
    assert (before + piece)[|before|..] == piece;
  }

  /** A piece of a prefix is a piece of the whole text. */
  lemma InfixOfPrefix<T>(piece: seq<T>, prefix: seq<T>, text: seq<T>)
    requires IsInfix(piece, prefix) && prefix <= text
    ensures IsInfix(piece, text)
  {
    var k :| 0 <= k <= |prefix| && piece <= prefix[k..];
    assert prefix[k..] <= text[k..];
  }
}

=== FILE: point_in_time.dfy ===
/** The relational meaning of the point-in-time join template
    `MULTIPLE_FEATURE_VIEW_POINT_IN_TIME_JOIN` (feast-trino/trino.py:262-413), one function
    per common table expression, each over sequences of rows (SQL bags).
    Timestamps are seconds; a view's `ttl` of 0 means an unbounded look-back. */
module PointInTime {
  import opened Common
  import opened Ranking
  import opened Schema

  // ---------------------------------------------------------------------------
  // entity_dataframe: the entity-row unique id

  /** `CONCAT(CAST(k1 AS VARCHAR), ..., CAST(ts AS VARCHAR))`, or `CAST(ts AS VARCHAR)` alone
      for a view without entities. The timestamp cast is rendered as decimal seconds. */
  function UniqueId(keyValues: seq<Value>, entityTs: int): (r: string)
    ensures r == Join("", keyValues) + IntText(entityTs)
  {
    if |keyValues| > 0 then
      JoinSnoc("", keyValues, IntText(entityTs));
      assert Join("", keyValues) + "" == Join("", keyValues);
      Join("", keyValues + [IntText(entityTs)])
    else
      IntText(entityTs)
  }

  /** With no entities the unique id is the entity timestamp's text alone. */
  lemma UniqueIdWithoutEntities(entityTs: int)
    ensures UniqueId([], entityTs) == IntText(entityTs)
  {
  }

  /** For the same key values, different timestamps give different unique ids. */
  lemma UniqueIdSeparatesTimestamps(keyValues: seq<Value>, t1: int, t2: int)
    requires UniqueId(keyValues, t1) == UniqueId(keyValues, t2)
    ensures t1 == t2
  {
    var prefix := Join("", keyValues);
    assert IntText(t1) == UniqueId(keyValues, t1)[|prefix|..];
    assert IntText(t2) == UniqueId(keyValues, t2)[|prefix|..];
    IntTextInjective(t1, t2);
  }

  /** The concatenation has no separator, so the unique id is NOT injective in the key
      values: two different entity rows of one view can share an id. */
  lemma UniqueIdCollision()
    ensures ["a", "bc"] != ["ab", "c"]
    ensures UniqueId(["a", "bc"], 0) == UniqueId(["ab", "c"], 0)
  {
    assert Join("", ["a", "bc"]) == "abc" by {
      assert ["a", "bc"][1..] == ["bc"];
    }
    assert Join("", ["ab", "c"]) == "abc" by {
      assert ["ab", "c"][1..] == ["c"];
    }
  }

  /** The projection of an entity row onto one view: `<view>__entity_dataframe` columns. */
  datatype ViewEntity = ViewEntity(keys: seq<Value>, timestamp: int, uid: string)

  predicate HasEntityColumns(ctx: QueryContext, e: EntityRow) {
    forall k :: 0 <= k < |ctx.entities| ==> ctx.entities[k] in e.columns
  }

  predicate AllHaveEntityColumns(ctx: QueryContext, df: seq<EntityRow>) {
    forall e :: e in df ==> HasEntityColumns(ctx, e)
  }

  /** The view's entity columns of `e`, in the view's entity order. */
  function KeyValues(ctx: QueryContext, e: EntityRow): (r: seq<Value>)
    requires HasEntityColumns(ctx, e)
    ensures |r| == |ctx.entities|
  {
    seq(|ctx.entities|, k requires 0 <= k < |ctx.entities| && ctx.entities[k] in e.columns =>
      e.columns[ctx.entities[k]])
  }

  function ViewEntityOf(ctx: QueryContext, e: EntityRow): ViewEntity
    requires HasEntityColumns(ctx, e)
  {
    var keys := KeyValues(ctx, e);
    ViewEntity(keys, e.timestamp, UniqueId(keys, e.timestamp))
  }

  function ProjectEntities(ctx: QueryContext, df: seq<EntityRow>): (r: seq<ViewEntity>)
    requires AllHaveEntityColumns(ctx, df)
    ensures forall e :: e in df ==> ViewEntityOf(ctx, e) in r
    ensures forall v :: v in r ==> exists e :: e in df && v == ViewEntityOf(ctx, e)
  {
    if |df| == 0 then []
    else
      var rest := ProjectEntities(ctx, df[1..]);
      var r := [ViewEntityOf(ctx, df[0])] + rest;
      assert forall e :: e in df ==> ViewEntityOf(ctx, e) in r by {
        forall e | e in df ensures ViewEntityOf(ctx, e) in r {
          if e != df[0] {
            assert e in df[1..];
          }
        }
      }
      assert forall v :: v in r ==> exists e :: e in df && v == ViewEntityOf(ctx, e) by {
        forall v | v in r ensures exists e :: e in df && v == ViewEntityOf(ctx, e) {
          if v in rest {
            var e :| e in df[1..] && v == ViewEntityOf(ctx, e);
            assert e in df;
          } else {
            assert df[0] in df;
          }
        }
      }
      r
  }

  /** `<view>__entity_dataframe`: `GROUP BY` entities, entity_timestamp, unique id, so each
      combination occurring in the entity table occurs exactly once. */
  function EntityFrame(ctx: QueryContext, df: seq<EntityRow>): (r: seq<ViewEntity>)
    requires AllHaveEntityColumns(ctx, df)
    ensures NoDups(r)
    ensures forall e :: e in df ==> ViewEntityOf(ctx, e) in r
    ensures forall v :: v in r ==> exists e :: e in df && v == ViewEntityOf(ctx, e)
  {
    Distinct(ProjectEntities(ctx, df))
  }

  // ---------------------------------------------------------------------------
  // <view>__subquery: the coarse scan window

  function MaxEntityTs(df: seq<EntityRow>): (r: int)
    requires |df| > 0
    ensures forall e :: e in df ==> e.timestamp <= r
    ensures exists e :: e in df && e.timestamp == r
  {
    if |df| == 1 then df[0].timestamp
    else
      var m := MaxEntityTs(df[1..]);
      assert forall e :: e in df <==> e == df[0] || e in df[1..];
      if df[0].timestamp >= m then df[0].timestamp else m
  }

  function MinEntityTs(df: seq<EntityRow>): (r: int)
    requires |df| > 0
    ensures forall e :: e in df ==> r <= e.timestamp
    ensures exists e :: e in df && e.timestamp == r
  {
    if |df| == 1 then df[0].timestamp
    else
      var m := MinEntityTs(df[1..]);
      assert forall e :: e in df <==> e == df[0] || e in df[1..];
      if df[0].timestamp <= m then df[0].timestamp else m
  }

  /** `event <= MAX(entity_timestamp)` and, unless ttl is 0, `event >= MIN(entity_timestamp) - ttl`.
      Over an empty entity table both aggregates are NULL and no row passes. */
  predicate InScanWindow(ctx: QueryContext, df: seq<EntityRow>, eventTs: int) {
    && |df| > 0
    && eventTs <= MaxEntityTs(df)
    && (ctx.ttl == 0 || eventTs >= MinEntityTs(df) - ctx.ttl)
  }

  function PreFilter(ctx: QueryContext, src: seq<SourceRow>, df: seq<EntityRow>): (r: seq<SourceRow>)
    ensures forall s :: s in r <==> s in src && InScanWindow(ctx, df, s.eventTs)
  {
    if |src| == 0 then []
    else
      var rest := PreFilter(ctx, src[1..], df);
      assert forall s :: s in src <==> s == src[0] || s in src[1..];
      if InScanWindow(ctx, df, src[0].eventTs) then [src[0]] + rest else rest
  }

  // ---------------------------------------------------------------------------
  // <view>__base: the as-of join

  /** The join condition of `<view>__base`: equal keys, the source row is not newer than the
      entity row, and (unless ttl is 0) not older than the entity timestamp minus ttl. */
  predicate AsOf(ctx: QueryContext, s: SourceRow, v: ViewEntity) {
    && s.keys == v.keys
    && s.eventTs <= v.timestamp
    && (ctx.ttl == 0 || s.eventTs >= v.timestamp - ctx.ttl)
  }

  datatype BaseRow = BaseRow(src: SourceRow, entity: ViewEntity)
  {
    function Uid(): string {
      entity.uid
    }

    function Stamp(): Stamp {
      src.Stamp()
    }
  }

  /** The rows one source row contributes to the join. */
  function JoinSourceRow(ctx: QueryContext, s: SourceRow, frame: seq<ViewEntity>): (r: seq<BaseRow>)
    ensures forall b :: b in r <==> b.src == s && b.entity in frame && AsOf(ctx, s, b.entity)
  {
    if |frame| == 0 then []
    else
      var rest := JoinSourceRow(ctx, s, frame[1..]);
      assert forall v :: v in frame <==> v == frame[0] || v in frame[1..];
      if AsOf(ctx, s, frame[0]) then [BaseRow(s, frame[0])] + rest else rest
  }

  /** `<view>__base`: the inner join of the filtered source with the view's entity frame. */
  function Base(ctx: QueryContext, sub: seq<SourceRow>, frame: seq<ViewEntity>): (r: seq<BaseRow>)
    ensures forall b :: b in r <==> b.src in sub && b.entity in frame && AsOf(ctx, b.src, b.entity)
  {
    if |sub| == 0 then []
    else
      assert forall s :: s in sub <==> s == sub[0] || s in sub[1..];
      JoinSourceRow(ctx, sub[0], frame) + Base(ctx, sub[1..], frame)
  }

  /** Pre-filter soundness: a source row eligible for some entity row lies in the scan window. */
  lemma EligibleRowsPassScanWindow(ctx: QueryContext, df: seq<EntityRow>, s: SourceRow, e: EntityRow)
    requires AllHaveEntityColumns(ctx, df)
    requires e in df && AsOf(ctx, s, ViewEntityOf(ctx, e))
    ensures InScanWindow(ctx, df, s.eventTs)
  {
  }

  /** A source row outside the scan window joins no entity row. */
  lemma OutsideScanWindowJoinsNothing(ctx: QueryContext, df: seq<EntityRow>, s: SourceRow)
    requires AllHaveEntityColumns(ctx, df)
    ensures !InScanWindow(ctx, df, s.eventTs) ==> JoinSourceRow(ctx, s, EntityFrame(ctx, df)) == []
  {
    var joined := JoinSourceRow(ctx, s, EntityFrame(ctx, df));
    if |joined| > 0 {
      var b := joined[0];
      var e :| e in df && b.entity == ViewEntityOf(ctx, e);
      EligibleRowsPassScanWindow(ctx, df, s, e);
    }
  }

  /** The pre-filter never changes the join: `<view>__base` is the same with and without it. */
  lemma {:induction false} PreFilterKeepsBase(ctx: QueryContext, src: seq<SourceRow>, df: seq<EntityRow>)
    requires AllHaveEntityColumns(ctx, df)
    ensures Base(ctx, PreFilter(ctx, src, df), EntityFrame(ctx, df)) == Base(ctx, src, EntityFrame(ctx, df))
  {
    if |src| > 0 {
      PreFilterKeepsBase(ctx, src[1..], df);
      OutsideScanWindowJoinsNothing(ctx, df, src[0]);
      var frame := EntityFrame(ctx, df);
      var rest := PreFilter(ctx, src[1..], df);
      if InScanWindow(ctx, df, src[0].eventTs) {
        assert PreFilter(ctx, src, df) == [src[0]] + rest;
        assert ([src[0]] + rest)[1..] == rest;
      } else {
        assert PreFilter(ctx, src, df) == rest;
      }
    }
  }

  // ---------------------------------------------------------------------------
  // <view>__dedup: MAX(created_timestamp) per (unique id, event_timestamp)

  datatype GroupMax = GroupMax(uid: string, eventTs: int, createdTs: int)

  predicate InGroup(b: BaseRow, uid: string, eventTs: int) {
    b.Uid() == uid && b.src.eventTs == eventTs
  }

  /** `g` is the row `GROUP BY uid, event_timestamp` yields with `MAX(created_timestamp)`. */
  predicate IsGroupMax(base: seq<BaseRow>, g: GroupMax) {
    && (exists b :: b in base && InGroup(b, g.uid, g.eventTs) && b.src.createdTs == g.createdTs)
    && (forall b :: b in base && InGroup(b, g.uid, g.eventTs) ==> b.src.createdTs <= g.createdTs)
  }

  function GroupKeys(base: seq<BaseRow>): (r: seq<(string, int)>)
    ensures forall b :: b in base ==> (b.Uid(), b.src.eventTs) in r
    ensures forall k :: k in r ==> exists b :: b in base && InGroup(b, k.0, k.1)
  {
    if |base| == 0 then []
    else
      assert forall b :: b in base <==> b == base[0] || b in base[1..];
      [(base[0].Uid(), base[0].src.eventTs)] + GroupKeys(base[1..])
  }

  function GroupRows(base: seq<BaseRow>, uid: string, eventTs: int): (r: seq<BaseRow>)
    ensures forall b :: b in r <==> b in base && InGroup(b, uid, eventTs)
  {
    if |base| == 0 then []
    else
      var rest := GroupRows(base[1..], uid, eventTs);
      assert forall b :: b in base <==> b == base[0] || b in base[1..];
      if InGroup(base[0], uid, eventTs) then [base[0]] + rest else rest
  }

  function GroupMaxOf(base: seq<BaseRow>, key: (string, int)): (g: GroupMax)
    requires key in GroupKeys(base)
    ensures g.uid == key.0 && g.eventTs == key.1
    ensures IsGroupMax(base, g)
  {
    var b :| b in base && InGroup(b, key.0, key.1);
    assert b in GroupRows(base, key.0, key.1);
    var t := Top(GroupRows(base, key.0, key.1), (x: BaseRow) => x.Stamp(), true);
    GroupMax(key.0, key.1, t.src.createdTs)
  }

  function GroupMaxes(base: seq<BaseRow>, keys: seq<(string, int)>): (r: seq<GroupMax>)
    requires forall k :: k in keys ==> k in GroupKeys(base)
    ensures |r| == |keys|
    ensures forall i :: 0 <= i < |r| ==> r[i].uid == keys[i].0 && r[i].eventTs == keys[i].1
    ensures forall g :: g in r ==> IsGroupMax(base, g)
  {
    if |keys| == 0 then []
    else [GroupMaxOf(base, keys[0])] + GroupMaxes(base, keys[1..])
  }

  /** Two group maxima of the same group are the same row. */
  lemma GroupMaxUnique(base: seq<BaseRow>, g1: GroupMax, g2: GroupMax)
    requires IsGroupMax(base, g1) && IsGroupMax(base, g2)
    requires g1.uid == g2.uid && g1.eventTs == g2.eventTs
    ensures g1 == g2
  {
    var b1 :| b1 in base && InGroup(b1, g1.uid, g1.eventTs) && b1.src.createdTs == g1.createdTs;
    var b2 :| b2 in base && InGroup(b2, g2.uid, g2.eventTs) && b2.src.createdTs == g2.createdTs;
  }

  /** `<view>__dedup`: exactly the maximal created time of every (unique id, event time) group. */
  function MaxCreatedDedup(base: seq<BaseRow>): (r: seq<GroupMax>)
    ensures NoDups(r)
    ensures forall g :: g in r <==> IsGroupMax(base, g)
  {
    var keys := Distinct(GroupKeys(base));
    var r := GroupMaxes(base, keys);
    assert forall g :: IsGroupMax(base, g) ==> g in r by {
      forall g | IsGroupMax(base, g) ensures g in r {
        var b :| b in base && InGroup(b, g.uid, g.eventTs) && b.src.createdTs == g.createdTs;
        assert (g.uid, g.eventTs) in keys;
        var i :| 0 <= i < |keys| && keys[i] == (g.uid, g.eventTs);
        GroupMaxUnique(base, g, r[i]);
      }
    }
    assert NoDups(r) by {
      forall i, j | 0 <= i < j < |r| ensures r[i] != r[j] {
        assert keys[i] != keys[j];
      }
    }
    r
  }

  /** `<view>__base INNER JOIN <view>__dedup USING (uid, event_timestamp, created_timestamp)`. */
  function JoinDedup(base: seq<BaseRow>, dedup: seq<GroupMax>): (r: seq<BaseRow>)
    ensures forall b :: b in r <==> b in base && GroupMax(b.Uid(), b.src.eventTs, b.src.createdTs) in dedup
  {
    if |base| == 0 then []
    else
      var rest := JoinDedup(base[1..], dedup);
      assert forall b :: b in base <==> b == base[0] || b in base[1..];
      if GroupMax(base[0].Uid(), base[0].src.eventTs, base[0].src.createdTs) in dedup
      then [base[0]] + rest else rest
  }

  /** A base row carries its group's maximum exactly when no row of its group was created later. */
  lemma GroupMaxOfRow(base: seq<BaseRow>, b: BaseRow)
    requires b in base
    ensures IsGroupMax(base, GroupMax(b.Uid(), b.src.eventTs, b.src.createdTs)) <==>
            forall x :: x in base && InGroup(x, b.Uid(), b.src.eventTs) ==> x.src.createdTs <= b.src.createdTs
  {
    assert InGroup(b, b.Uid(), b.src.eventTs);
  }

  /** The rows `ROW_NUMBER` ranks: with a created column, the base rows that carry their
      group's maximal created time; otherwise all base rows. */
  function RankInput(ctx: QueryContext, base: seq<BaseRow>): (r: seq<BaseRow>)
    ensures forall b :: b in r ==> b in base
    ensures ctx.HasCreated() ==> forall b :: b in r <==>
              b in base && forall x :: x in base && InGroup(x, b.Uid(), b.src.eventTs) ==>
                                       x.src.createdTs <= b.src.createdTs
    ensures !ctx.HasCreated() ==> r == base
  {
    if ctx.HasCreated() then
      var dedup := MaxCreatedDedup(base);
      var r := JoinDedup(base, dedup);
      forall b | b in base
        ensures IsGroupMax(base, GroupMax(b.Uid(), b.src.eventTs, b.src.createdTs)) <==>
                forall x :: x in base && InGroup(x, b.Uid(), b.src.eventTs) ==> x.src.createdTs <= b.src.createdTs
      {
        GroupMaxOfRow(base, b);
      }
      r
    else base
  }

  /** Every base row is matched or beaten, within its unique id, by a row of the rank input. */
  lemma RankInputDominates(ctx: QueryContext, base: seq<BaseRow>, b: BaseRow)
    requires b in base
    ensures exists t :: t in RankInput(ctx, base) && t.Uid() == b.Uid() && AtLeast(ctx.HasCreated(), t.Stamp(), b.Stamp())
  {
    if ctx.HasCreated() {
      var group := GroupRows(base, b.Uid(), b.src.eventTs);
      assert b in group;
      var t := Top(group, (x: BaseRow) => x.Stamp(), true);
      assert t in RankInput(ctx, base);
    } else {
      assert b in RankInput(ctx, base);
    }
  }

  // ---------------------------------------------------------------------------
  // <view>__latest: ROW_NUMBER() OVER(PARTITION BY uid ORDER BY event DESC[, created DESC]) = 1

  /** The columns `<view>__latest` projects, which are also the `USING` columns of `__cleaned`. */
  datatype LatestRow = LatestRow(uid: string, eventTs: int, createdTs: Option<int>)

  function LatestKey(ctx: QueryContext, b: BaseRow): LatestRow {
    LatestRow(b.Uid(), b.src.eventTs, if ctx.HasCreated() then Some(b.src.createdTs) else None)
  }

  /** `l` is what rank 1 of unique id `l.uid` projects: some row of that id with the
      projected timestamps ranks at least as high as every row of that id. */
  predicate IsLatest(ctx: QueryContext, rows: seq<BaseRow>, l: LatestRow) {
    exists t :: t in rows && LatestKey(ctx, t) == l &&
      forall b :: b in rows && b.Uid() == l.uid ==> AtLeast(ctx.HasCreated(), t.Stamp(), b.Stamp())
  }

  function Uids(rows: seq<BaseRow>): (r: seq<string>)
    ensures |r| == |rows| && forall i :: 0 <= i < |rows| ==> r[i] == rows[i].Uid()
  {
    seq(|rows|, i requires 0 <= i < |rows| => rows[i].Uid())
  }

  function LatestUids(latest: seq<LatestRow>): (r: seq<string>)
    ensures |r| == |latest| && forall i :: 0 <= i < |latest| ==> r[i] == latest[i].uid
  {
    seq(|latest|, i requires 0 <= i < |latest| => latest[i].uid)
  }

  lemma UidsCover(rows: seq<BaseRow>, b: BaseRow)
    requires b in rows
    ensures b.Uid() in Uids(rows)
  {
    var i :| 0 <= i < |rows| && rows[i] == b;
    assert Uids(rows)[i] == b.Uid();
  }

  function WithUid(rows: seq<BaseRow>, uid: string): (r: seq<BaseRow>)
    ensures forall b :: b in r <==> b in rows && b.Uid() == uid
    ensures r == [] <==> forall b :: b in rows ==> b.Uid() != uid
  {
    if |rows| == 0 then []
    else
      var rest := WithUid(rows[1..], uid);
      assert forall b :: b in rows <==> b == rows[0] || b in rows[1..];
      if rows[0].Uid() == uid then [rows[0]] + rest else rest
  }

  function LatestOf(ctx: QueryContext, rows: seq<BaseRow>, uid: string): (l: LatestRow)
    requires uid in Uids(rows)
    ensures l.uid == uid && IsLatest(ctx, rows, l)
  {
    var i :| 0 <= i < |rows| && Uids(rows)[i] == uid;
    assert rows[i] in WithUid(rows, uid);
    var t := Top(WithUid(rows, uid), (x: BaseRow) => x.Stamp(), ctx.HasCreated());
    LatestKey(ctx, t)
  }

  function LatestOfEach(ctx: QueryContext, rows: seq<BaseRow>, uids: seq<string>): (r: seq<LatestRow>)
    requires forall u :: u in uids ==> u in Uids(rows)
    ensures LatestUids(r) == uids
    ensures forall l :: l in r ==> IsLatest(ctx, rows, l)
  {
    if |uids| == 0 then []
    else
      assert uids[0] in uids;
      assert forall u :: u in uids[1..] ==> u in uids;
      var head := LatestOf(ctx, rows, uids[0]);
      var rest := LatestOfEach(ctx, rows, uids[1..]);
      LatestCons(ctx, rows, uids, head, rest);
      [head] + rest
  }

  /** One step of `LatestOfEach`: the latest row of the first id in front of those of the rest. */
  lemma LatestCons(ctx: QueryContext, rows: seq<BaseRow>, uids: seq<string>, head: LatestRow, rest: seq<LatestRow>)
    requires |uids| > 0 && head.uid == uids[0] && IsLatest(ctx, rows, head)
    requires LatestUids(rest) == uids[1..] && forall l :: l in rest ==> IsLatest(ctx, rows, l)
    ensures LatestUids([head] + rest) == uids
    ensures forall l :: l in [head] + rest ==> IsLatest(ctx, rows, l)
  {
    assert LatestUids([head] + rest) == [head.uid] + LatestUids(rest);
    assert uids == [uids[0]] + uids[1..];
  }

  /** `<view>__latest`: one row per unique id present, carrying that id's top timestamps. */
  function LatestRows(ctx: QueryContext, rows: seq<BaseRow>): (r: seq<LatestRow>)
    ensures NoDups(LatestUids(r))
    ensures forall u :: u in LatestUids(r) <==> u in Uids(rows)
    ensures forall l :: l in r ==> IsLatest(ctx, rows, l)
  {
    LatestOfEach(ctx, rows, Distinct(Uids(rows)))
  }

  // ---------------------------------------------------------------------------
  // <view>__cleaned: re-join to the base rows

  /** `<view>__base INNER JOIN <view>__latest USING (uid, event_timestamp[, created_timestamp])`. */
  function Cleaned(ctx: QueryContext, base: seq<BaseRow>, latest: seq<LatestRow>): (r: seq<BaseRow>)
    ensures forall b :: b in r <==> b in base && LatestKey(ctx, b) in latest
  {
    if |base| == 0 then []
    else
      var rest := Cleaned(ctx, base[1..], latest);
      assert forall b :: b in base <==> b == base[0] || b in base[1..];
      if LatestKey(ctx, base[0]) in latest then [base[0]] + rest else rest
  }

  /** The CTE chain of one view after `__base`. */
  function CleanedOf(ctx: QueryContext, base: seq<BaseRow>): seq<BaseRow>
  {
    Cleaned(ctx, base, LatestRows(ctx, RankInput(ctx, base)))
  }

  /** Rows with the same `USING` columns rank alike. */
  lemma SameLatestKeyRanksAlike(ctx: QueryContext, c: BaseRow, t: BaseRow, b: BaseRow)
    requires LatestKey(ctx, c) == LatestKey(ctx, t)
    ensures AtLeast(ctx.HasCreated(), t.Stamp(), b.Stamp()) ==> AtLeast(ctx.HasCreated(), c.Stamp(), b.Stamp())
  {
  }

  /** The rank-1 row of each unique id is maximal over all of `__base`, not only over the rows
      the max-created dedup kept. */
  lemma LatestIsMaximalOverBase(ctx: QueryContext, base: seq<BaseRow>, l: LatestRow)
    requires l in LatestRows(ctx, RankInput(ctx, base))
    ensures IsLatest(ctx, base, l)
  {
    var hc := ctx.HasCreated();
    var input := RankInput(ctx, base);
    var t :| t in input && LatestKey(ctx, t) == l &&
      forall b :: b in input && b.Uid() == l.uid ==> AtLeast(hc, t.Stamp(), b.Stamp());
    forall b | b in base && b.Uid() == l.uid ensures AtLeast(hc, t.Stamp(), b.Stamp()) {
      RankInputDominates(ctx, base, b);
      var t' :| t' in input && t'.Uid() == b.Uid() && AtLeast(hc, t'.Stamp(), b.Stamp());
      AtLeastIsTotalPreorder(hc, t.Stamp(), t'.Stamp(), b.Stamp());
    }
  }

  /** Every unique id of `__base` has its row in `__latest`. */
  lemma LatestCoversBase(ctx: QueryContext, base: seq<BaseRow>, b: BaseRow)
    requires b in base
    ensures b.Uid() in LatestUids(LatestRows(ctx, RankInput(ctx, base)))
  {
    var input := RankInput(ctx, base);
    RankInputDominates(ctx, base, b);
    var t' :| t' in input && t'.Uid() == b.Uid() && AtLeast(ctx.HasCreated(), t'.Stamp(), b.Stamp());
    UidsCover(input, t');
  }

  /** A `__cleaned` row ranks first among the base rows of its unique id. */
  lemma CleanedRowRanksFirst(ctx: QueryContext, base: seq<BaseRow>, c: BaseRow, b: BaseRow)
    requires c in CleanedOf(ctx, base) && b in base && b.Uid() == c.Uid()
    ensures c in base
    ensures AtLeast(ctx.HasCreated(), c.Stamp(), b.Stamp())
  {
    var l := LatestKey(ctx, c);
    LatestIsMaximalOverBase(ctx, base, l);
    var t :| t in base && LatestKey(ctx, t) == l &&
      forall x :: x in base && x.Uid() == l.uid ==> AtLeast(ctx.HasCreated(), t.Stamp(), x.Stamp());
    SameLatestKeyRanksAlike(ctx, c, t, b);
  }

  /** Every unique id of `__base` keeps at least one row in `__cleaned`. */
  lemma CleanedCoversBase(ctx: QueryContext, base: seq<BaseRow>, b: BaseRow)
    requires b in base
    ensures exists c :: c in CleanedOf(ctx, base) && c.Uid() == b.Uid()
  {
    var latest := LatestRows(ctx, RankInput(ctx, base));
    LatestCoversBase(ctx, base, b);
    var i :| 0 <= i < |latest| && LatestUids(latest)[i] == b.Uid();
    var l := latest[i];
    LatestIsMaximalOverBase(ctx, base, l);
    var t :| t in base && LatestKey(ctx, t) == l &&
      forall x :: x in base && x.Uid() == l.uid ==> AtLeast(ctx.HasCreated(), t.Stamp(), x.Stamp());
    assert t in CleanedOf(ctx, base);
  }

  // ---------------------------------------------------------------------------
  // One view end to end

  /** `<view>__cleaned` for the source rows `src` and the entity table `df`. */
  function ViewCleaned(ctx: QueryContext, src: seq<SourceRow>, df: seq<EntityRow>): seq<BaseRow>
    requires AllHaveEntityColumns(ctx, df)
  {
    CleanedOf(ctx, Base(ctx, PreFilter(ctx, src, df), EntityFrame(ctx, df)))
  }

  /** No two different entity projections of the table share a unique id. The id is a
      separator-less concatenation (see `UniqueIdCollision`), so this is a real assumption
      about the entity values, not a consequence of the template. */
  predicate UniqueIdsDistinct(ctx: QueryContext, df: seq<EntityRow>)
    requires AllHaveEntityColumns(ctx, df)
  {
    forall e1, e2 :: e1 in df && e2 in df && ViewEntityOf(ctx, e1).uid == ViewEntityOf(ctx, e2).uid ==>
      ViewEntityOf(ctx, e1) == ViewEntityOf(ctx, e2)
  }

  /** Ids can only collide across different key values: when every entity row has the same
      key values for the view, the ids are distinct. */
  lemma UniqueIdsDistinctForOneKey(ctx: QueryContext, df: seq<EntityRow>)
    requires AllHaveEntityColumns(ctx, df)
    requires forall e1, e2 :: e1 in df && e2 in df ==> KeyValues(ctx, e1) == KeyValues(ctx, e2)
    ensures UniqueIdsDistinct(ctx, df)
  {
    forall e1, e2 | e1 in df && e2 in df && ViewEntityOf(ctx, e1).uid == ViewEntityOf(ctx, e2).uid
      ensures ViewEntityOf(ctx, e1) == ViewEntityOf(ctx, e2)
    {
      UniqueIdSeparatesTimestamps(KeyValues(ctx, e1), e1.timestamp, e2.timestamp);
    }
  }

  /** Ids cannot collide when every key column is fixed-width: if, column by column, all
      entity rows' key values have the same length, the ids are distinct. */
  lemma UniqueIdsDistinctForFixedWidthKeys(ctx: QueryContext, df: seq<EntityRow>)
    requires AllHaveEntityColumns(ctx, df)
    requires forall e1, e2 :: e1 in df && e2 in df ==>
               forall k :: 0 <= k < |ctx.entities| ==> |KeyValues(ctx, e1)[k]| == |KeyValues(ctx, e2)[k]|
    ensures UniqueIdsDistinct(ctx, df)
  {
    forall e1, e2 | e1 in df && e2 in df && ViewEntityOf(ctx, e1).uid == ViewEntityOf(ctx, e2).uid
      ensures ViewEntityOf(ctx, e1) == ViewEntityOf(ctx, e2)
    {
      var a, b := KeyValues(ctx, e1), KeyValues(ctx, e2);
      ConcatOfSameLengths(a, b, IntText(e1.timestamp), IntText(e2.timestamp));
      IntTextInjective(e1.timestamp, e2.timestamp);
    }
  }

  /** Separator-less concatenations of pieces of the same lengths, each followed by a tail,
      agree only when the pieces and the tails agree. */
  lemma {:induction false} ConcatOfSameLengths(a: seq<string>, b: seq<string>, ta: string, tb: string)
    requires |a| == |b| && forall k :: 0 <= k < |a| ==> |a[k]| == |b[k]|
    requires Join("", a) + ta == Join("", b) + tb
    ensures a == b && ta == tb
  {
    if |a| == 0 {
      assert Join("", a) + ta == ta && Join("", b) + tb == tb;
    } else if |a| == 1 {
      SplitAtSameLength(a[0], ta, b[0], tb);
    } else if |a| > 1 {
      assert Join("", a) + ta == a[0] + (Join("", a[1..]) + ta);
      assert Join("", b) + tb == b[0] + (Join("", b[1..]) + tb);
      SplitAtSameLength(a[0], Join("", a[1..]) + ta, b[0], Join("", b[1..]) + tb);
      ConcatOfSameLengths(a[1..], b[1..], ta, tb);
      assert a == [a[0]] + a[1..] && b == [b[0]] + b[1..];
    }
  }

  lemma SplitAtSameLength(x: string, y: string, x2: string, y2: string)
    requires x + y == x2 + y2 && |x| == |x2|
    ensures x == x2 && y == y2
  {
    assert x == (x + y)[..|x|] && x2 == (x2 + y2)[..|x2|];
    assert y == (x + y)[|x|..] && y2 == (x2 + y2)[|x2|..];
  }

  /** An entity row for which some source row is eligible finds a cleaned row under its id. */
  lemma EligibleRowIsFound(ctx: QueryContext, src: seq<SourceRow>, df: seq<EntityRow>, e: EntityRow, s: SourceRow)
    requires AllHaveEntityColumns(ctx, df)
    requires e in df && s in src && AsOf(ctx, s, ViewEntityOf(ctx, e))
    ensures exists c :: c in ViewCleaned(ctx, src, df) && c.Uid() == ViewEntityOf(ctx, e).uid
  {
    EligibleRowsPassScanWindow(ctx, df, s, e);
    var base := Base(ctx, PreFilter(ctx, src, df), EntityFrame(ctx, df));
    assert BaseRow(s, ViewEntityOf(ctx, e)) in base;
    CleanedCoversBase(ctx, base, BaseRow(s, ViewEntityOf(ctx, e)));
  }

  /** As-of correctness for one view: when unique ids do not collide, a cleaned row under an
      entity row's id comes from an eligible source row and ranks first among all source rows
      eligible for that entity row (latest event time, ties broken by created time). */
  lemma FoundRowIsLatestEligible(ctx: QueryContext, src: seq<SourceRow>, df: seq<EntityRow>, e: EntityRow, c: BaseRow)
    requires AllHaveEntityColumns(ctx, df) && UniqueIdsDistinct(ctx, df)
    requires e in df && c in ViewCleaned(ctx, src, df) && c.Uid() == ViewEntityOf(ctx, e).uid
    ensures c.src in src && AsOf(ctx, c.src, ViewEntityOf(ctx, e))
    ensures forall s :: s in src && AsOf(ctx, s, ViewEntityOf(ctx, e)) ==>
              AtLeast(ctx.HasCreated(), c.src.Stamp(), s.Stamp())
  {
    var v := ViewEntityOf(ctx, e);
    var base := Base(ctx, PreFilter(ctx, src, df), EntityFrame(ctx, df));
    CleanedRowRanksFirst(ctx, base, c, c);
    var e' :| e' in df && c.entity == ViewEntityOf(ctx, e');
    assert c.entity == v;
    forall s | s in src && AsOf(ctx, s, v) ensures AtLeast(ctx.HasCreated(), c.src.Stamp(), s.Stamp()) {
      CleanedRowBeatsEligible(ctx, src, df, e, c, s);
    }
  }

  /** A cleaned row under an entity row's id ranks at least as high as any source row eligible
      for that entity row. */
  lemma CleanedRowBeatsEligible(ctx: QueryContext, src: seq<SourceRow>, df: seq<EntityRow>, e: EntityRow, c: BaseRow, s: SourceRow)
    requires AllHaveEntityColumns(ctx, df)
    requires e in df && c in ViewCleaned(ctx, src, df) && c.Uid() == ViewEntityOf(ctx, e).uid
    requires s in src && AsOf(ctx, s, ViewEntityOf(ctx, e))
    ensures AtLeast(ctx.HasCreated(), c.src.Stamp(), s.Stamp())
  {
    var v := ViewEntityOf(ctx, e);
    var base := Base(ctx, PreFilter(ctx, src, df), EntityFrame(ctx, df));
    EligibleRowsPassScanWindow(ctx, df, s, e);
    assert BaseRow(s, v) in base;
    CleanedRowRanksFirst(ctx, base, c, BaseRow(s, v));
  }

  // ---------------------------------------------------------------------------
  // Final SELECT: entity_dataframe LEFT JOIN each view's __cleaned USING (unique id)

  datatype OutputRow = OutputRow(entity: EntityRow, features: seq<Option<Value>>)

  function Nulls(n: nat): (r: seq<Option<Value>>)
    ensures |r| == n && forall i :: 0 <= i < n ==> r[i].None?
  {
    seq(n, i => None)
  }

  function Present(values: seq<Value>): (r: seq<Option<Value>>)
    ensures |r| == |values| && forall i :: 0 <= i < |values| ==> r[i] == Some(values[i])
  {
    seq(|values|, i requires 0 <= i < |values| => Some(values[i]))
  }

  /** `out` is a row the left join produces from the left row `o`: the view's feature columns
      are appended, taken from a cleaned row under `o`'s unique id, or NULL when there is none. */
  predicate LeftJoined(ctx: QueryContext, cleaned: seq<BaseRow>, o: OutputRow, out: OutputRow)
    requires HasEntityColumns(ctx, o.entity)
  {
    var uid := ViewEntityOf(ctx, o.entity).uid;
    && out.entity == o.entity
    && (|| ((forall c :: c in cleaned ==> c.Uid() != uid) && out.features == o.features + Nulls(|ctx.features|))
        || (exists c :: c in cleaned && c.Uid() == uid && out.features == o.features + Present(c.src.features)))
  }

  function Extend(o: OutputRow, matches: seq<BaseRow>): (r: seq<OutputRow>)
    ensures |r| == |matches|
    ensures forall i :: 0 <= i < |r| ==> r[i] == OutputRow(o.entity, o.features + Present(matches[i].src.features))
  {
    seq(|matches|, i requires 0 <= i < |matches| => OutputRow(o.entity, o.features + Present(matches[i].src.features)))
  }

  /** The left join of one left row: one row per match, or one NULL-extended row. */
  function LeftJoinRow(ctx: QueryContext, cleaned: seq<BaseRow>, o: OutputRow): (r: seq<OutputRow>)
    requires HasEntityColumns(ctx, o.entity)
    ensures |r| >= 1
    ensures forall out :: out in r ==> LeftJoined(ctx, cleaned, o, out)
    ensures var matches := WithUid(cleaned, ViewEntityOf(ctx, o.entity).uid);
            |r| == if matches == [] then 1 else |matches|
    ensures forall c :: c in cleaned && c.Uid() == ViewEntityOf(ctx, o.entity).uid ==>
              OutputRow(o.entity, o.features + Present(c.src.features)) in r
  {
    var matches := WithUid(cleaned, ViewEntityOf(ctx, o.entity).uid);
    if matches == [] then
      [OutputRow(o.entity, o.features + Nulls(|ctx.features|))]
    else
      var r := Extend(o, matches);
      assert forall out :: out in r ==> LeftJoined(ctx, cleaned, o, out) by {
        forall out | out in r ensures LeftJoined(ctx, cleaned, o, out) {
          var i :| 0 <= i < |r| && r[i] == out;
          assert matches[i] in matches;
        }
      }
      assert forall c :: c in matches ==> OutputRow(o.entity, o.features + Present(c.src.features)) in r by {
        forall c | c in matches ensures OutputRow(o.entity, o.features + Present(c.src.features)) in r {
          var i :| 0 <= i < |matches| && matches[i] == c;
          assert r[i] in r;
        }
      }
      r
  }

  predicate RowsHaveEntityColumns(ctx: QueryContext, rows: seq<OutputRow>) {
    forall o :: o in rows ==> HasEntityColumns(ctx, o.entity)
  }

  /** `LEFT JOIN (SELECT uid, features FROM <view>__cleaned) USING (uid)`: each left row in
      turn, extended with the view's features or with NULLs. Every output row comes from a
      left row; `LeftJoinKeepsEveryRow` states the converse. */
  function LeftJoinView(ctx: QueryContext, cleaned: seq<BaseRow>, rows: seq<OutputRow>): (r: seq<OutputRow>)
    requires RowsHaveEntityColumns(ctx, rows)
    ensures |r| >= |rows|
    ensures forall out :: out in r ==> exists o :: o in rows && LeftJoined(ctx, cleaned, o, out)
  {
    if |rows| == 0 then []
    else
      var head := LeftJoinRow(ctx, cleaned, rows[0]);
      var rest := LeftJoinView(ctx, cleaned, rows[1..]);
      assert rows[0] in rows;
      assert forall o :: o in rows[1..] ==> o in rows;
      head + rest
  }

  /** Left-join completeness: no left row is lost. */
  lemma {:induction false} LeftJoinKeepsEveryRow(ctx: QueryContext, cleaned: seq<BaseRow>, rows: seq<OutputRow>, o: OutputRow)
    requires RowsHaveEntityColumns(ctx, rows) && o in rows
    ensures exists out :: out in LeftJoinView(ctx, cleaned, rows) && LeftJoined(ctx, cleaned, o, out)
  {
    assert rows[0] in rows;
    var head := LeftJoinRow(ctx, cleaned, rows[0]);
    if o == rows[0] {
      var out := head[0];
      assert out in head && LeftJoined(ctx, cleaned, o, out);
      LeftJoinHasHead(ctx, cleaned, rows, out);
    } else {
      assert o in rows[1..] by { assert rows == [rows[0]] + rows[1..]; }
      LeftJoinKeepsEveryRow(ctx, cleaned, rows[1..], o);
      var out :| out in LeftJoinView(ctx, cleaned, rows[1..]) && LeftJoined(ctx, cleaned, o, out);
      LeftJoinHasRest(ctx, cleaned, rows, out);
    }
  }

  /** The left join of a non-empty left side: the first row's rows, then the rest's. */
  lemma LeftJoinViewUnfold(ctx: QueryContext, cleaned: seq<BaseRow>, rows: seq<OutputRow>)
    requires RowsHaveEntityColumns(ctx, rows) && |rows| > 0
    ensures RowsHaveEntityColumns(ctx, rows[1..]) && HasEntityColumns(ctx, rows[0].entity)
    ensures LeftJoinView(ctx, cleaned, rows) == LeftJoinRow(ctx, cleaned, rows[0]) + LeftJoinView(ctx, cleaned, rows[1..])
  {
    assert rows[0] in rows;
  }

  /** The rows of the first left row are rows of the left join. */
  lemma LeftJoinHasHead(ctx: QueryContext, cleaned: seq<BaseRow>, rows: seq<OutputRow>, out: OutputRow)
    requires RowsHaveEntityColumns(ctx, rows) && |rows| > 0
    requires out in LeftJoinRow(ctx, cleaned, rows[0])
    ensures out in LeftJoinView(ctx, cleaned, rows)
  {
    LeftJoinViewUnfold(ctx, cleaned, rows);
  }

  /** The rows of the later left rows are rows of the left join. */
  lemma LeftJoinHasRest(ctx: QueryContext, cleaned: seq<BaseRow>, rows: seq<OutputRow>, out: OutputRow)
    requires RowsHaveEntityColumns(ctx, rows) && |rows| > 0
    requires out in LeftJoinView(ctx, cleaned, rows[1..])
    ensures out in LeftJoinView(ctx, cleaned, rows)
  {
    LeftJoinViewUnfold(ctx, cleaned, rows);
  }

  function Entities(rows: seq<OutputRow>): (r: seq<EntityRow>)
    ensures |r| == |rows| && forall i :: 0 <= i < |rows| ==> r[i] == rows[i].entity
  {
    seq(|rows|, i requires 0 <= i < |rows| => rows[i].entity)
  }

  /** With at most one cleaned row per unique id, a lookup by id finds at most one row. */
  lemma {:induction false} WithUidAtMostOne(cleaned: seq<BaseRow>, uid: string)
    requires NoDups(Uids(cleaned))
    ensures |WithUid(cleaned, uid)| <= 1
  {
    if |cleaned| > 0 {
      var tail := cleaned[1..];
      assert Uids(tail) == Uids(cleaned)[1..];
      WithUidAtMostOne(tail, uid);
      if cleaned[0].Uid() == uid {
        forall b | b in tail ensures b.Uid() != uid {
          var j :| 0 <= j < |tail| && tail[j] == b;
          NoDupsPair(Uids(cleaned), 0, j + 1);
        }
      }
    }
  }

  lemma EntitiesAppend(a: seq<OutputRow>, b: seq<OutputRow>)
    ensures Entities(a + b) == Entities(a) + Entities(b)
  {
  }

  /** Without ties in `__cleaned`, one left row yields exactly one row, for its entity row. */
  lemma LeftJoinRowWithoutTies(ctx: QueryContext, cleaned: seq<BaseRow>, o: OutputRow)
    requires HasEntityColumns(ctx, o.entity)
    requires NoDups(Uids(cleaned))
    ensures Entities(LeftJoinRow(ctx, cleaned, o)) == [o.entity]
  {
    var r := LeftJoinRow(ctx, cleaned, o);
    WithUidAtMostOne(cleaned, ViewEntityOf(ctx, o.entity).uid);
    assert r[0] in r;
  }

  /** Without ties in `__cleaned`, the left join returns the left rows one for one, in order. */
  lemma {:induction false} LeftJoinWithoutTiesKeepsRows(ctx: QueryContext, cleaned: seq<BaseRow>, rows: seq<OutputRow>)
    requires RowsHaveEntityColumns(ctx, rows)
    requires NoDups(Uids(cleaned))
    ensures Entities(LeftJoinView(ctx, cleaned, rows)) == Entities(rows)
  {
    if |rows| > 0 {
      LeftJoinViewUnfold(ctx, cleaned, rows);
      var head := LeftJoinRow(ctx, cleaned, rows[0]);
      var rest := LeftJoinView(ctx, cleaned, rows[1..]);
      LeftJoinRowWithoutTies(ctx, cleaned, rows[0]);
      LeftJoinWithoutTiesKeepsRows(ctx, cleaned, rows[1..]);
      EntitiesAppend(head, rest);
      EntitiesAppend([rows[0]], rows[1..]);
      assert [rows[0]] + rows[1..] == rows;
      assert Entities([rows[0]]) == [rows[0].entity];
    }
  }

  /** One feature view of a request, with the rows of its source. */
  datatype FeatureViewSource = FeatureViewSource(ctx: QueryContext, rows: seq<SourceRow>)

  predicate ViewsFit(df: seq<EntityRow>, views: seq<FeatureViewSource>) {
    forall i :: 0 <= i < |views| ==> AllHaveEntityColumns(views[i].ctx, df)
  }

  function EntityRowsOutput(df: seq<EntityRow>): (r: seq<OutputRow>)
    ensures Entities(r) == df
    ensures forall out :: out in r ==> out.features == []
  {
    seq(|df|, i requires 0 <= i < |df| => OutputRow(df[i], []))
  }

  /** The final SELECT: the entity table left-joined with every view's cleaned rows, in view order. */
  function Assemble(df: seq<EntityRow>, views: seq<FeatureViewSource>): (r: seq<OutputRow>)
    requires ViewsFit(df, views)
    ensures |r| >= |df|
    ensures forall out :: out in r ==> out.entity in df
    ensures forall e :: e in df ==> exists out :: out in r && out.entity == e
  {
    if |views| == 0 then
      var r := EntityRowsOutput(df);
      EntityRowsOutputCovers(df);
      r
    else
      var prev := Assemble(df, views[..|views| - 1]);
      var v := views[|views| - 1];
      var cleaned := ViewCleaned(v.ctx, v.rows, df);
      assert RowsHaveEntityColumns(v.ctx, prev);
      LeftJoinViewCovers(df, v.ctx, cleaned, prev);
      LeftJoinView(v.ctx, cleaned, prev)
  }

  /** The entity table alone yields one output row per entity row and no other. */
  lemma EntityRowsOutputCovers(df: seq<EntityRow>)
    ensures forall out :: out in EntityRowsOutput(df) ==> out.entity in df
    ensures forall e :: e in df ==> exists out :: out in EntityRowsOutput(df) && out.entity == e
  {
    var r := EntityRowsOutput(df);
    forall e | e in df ensures exists out :: out in r && out.entity == e {
      var i :| 0 <= i < |df| && df[i] == e;
      assert Entities(r)[i] == df[i];
      assert r[i] in r;
    }
    forall out | out in r ensures out.entity in df {
      var i :| 0 <= i < |r| && r[i] == out;
      assert Entities(r)[i] == df[i];
    }
  }

  /** A left join keeps the left side's entity rows: each still appears, and no other does. */
  lemma LeftJoinViewCovers(df: seq<EntityRow>, ctx: QueryContext, cleaned: seq<BaseRow>, rows: seq<OutputRow>)
    requires RowsHaveEntityColumns(ctx, rows)
    requires forall out :: out in rows ==> out.entity in df
    requires forall e :: e in df ==> exists out :: out in rows && out.entity == e
    ensures forall out :: out in LeftJoinView(ctx, cleaned, rows) ==> out.entity in df
    ensures forall e :: e in df ==> exists out :: out in LeftJoinView(ctx, cleaned, rows) && out.entity == e
  {
    var r := LeftJoinView(ctx, cleaned, rows);
    forall out | out in r ensures out.entity in df {
      var o :| o in rows && LeftJoined(ctx, cleaned, o, out);
    }
    forall e | e in df ensures exists out :: out in r && out.entity == e {
      var o :| o in rows && o.entity == e;
      LeftJoinKeepsEveryRow(ctx, cleaned, rows, o);
    }
  }

  /** Left-join completeness: when no view has ties in `__cleaned`, the output has exactly one
      row per entity row, in the entity table's order. */
  lemma {:induction false} AssembleWithoutTiesKeepsRows(df: seq<EntityRow>, views: seq<FeatureViewSource>)
    requires ViewsFit(df, views) && NoTiesInEveryView(df, views)
    ensures Entities(Assemble(df, views)) == df
  {
    if |views| > 0 {
      var init := views[..|views| - 1];
      var v := views[|views| - 1];
      AssembleLastView(df, views);
      InitViewsNoTies(df, views);
      AssembleWithoutTiesKeepsRows(df, init);
      LeftJoinStepKeepsRows(df, v.ctx, ViewCleaned(v.ctx, v.rows, df), Assemble(df, init), Assemble(df, views));
    }
  }

  /** No view's `__cleaned` holds two rows under one unique id. */
  predicate NoTiesInEveryView(df: seq<EntityRow>, views: seq<FeatureViewSource>)
    requires ViewsFit(df, views)
  {
    forall i :: 0 <= i < |views| ==> NoDups(Uids(ViewCleaned(views[i].ctx, views[i].rows, df)))
  }

  lemma InitViewsNoTies(df: seq<EntityRow>, views: seq<FeatureViewSource>)
    requires |views| > 0 && ViewsFit(df, views) && NoTiesInEveryView(df, views)
    ensures ViewsFit(df, views[..|views| - 1]) && NoTiesInEveryView(df, views[..|views| - 1])
  {
    var init := views[..|views| - 1];
    forall i | 0 <= i < |init| ensures AllHaveEntityColumns(init[i].ctx, df) {
      assert init[i] == views[i];
    }
    forall i | 0 <= i < |init| ensures NoDups(Uids(ViewCleaned(init[i].ctx, init[i].rows, df))) {
      assert init[i] == views[i];
    }
  }

  /** A tie-free left join over rows that follow the entity table still follows it. */
  lemma LeftJoinStepKeepsRows(df: seq<EntityRow>, ctx: QueryContext, cleaned: seq<BaseRow>, rows: seq<OutputRow>, r: seq<OutputRow>)
    requires RowsHaveEntityColumns(ctx, rows) && NoDups(Uids(cleaned))
    requires Entities(rows) == df && r == LeftJoinView(ctx, cleaned, rows)
    ensures Entities(r) == df
  {
    LeftJoinWithoutTiesKeepsRows(ctx, cleaned, rows);
  }

  /** When no source row is eligible for an entity row, `__cleaned` has no row under its id. */
  lemma NoEligibleRowNoMatch(ctx: QueryContext, src: seq<SourceRow>, df: seq<EntityRow>, e: EntityRow)
    requires AllHaveEntityColumns(ctx, df) && UniqueIdsDistinct(ctx, df) && e in df
    requires forall s :: s in src ==> !AsOf(ctx, s, ViewEntityOf(ctx, e))
    ensures forall c :: c in ViewCleaned(ctx, src, df) ==> c.Uid() != ViewEntityOf(ctx, e).uid
  {
    forall c | c in ViewCleaned(ctx, src, df) ensures c.Uid() != ViewEntityOf(ctx, e).uid {
      if c.Uid() == ViewEntityOf(ctx, e).uid {
        FoundRowIsLatestEligible(ctx, src, df, e, c);
      }
    }
  }

  /** `s` is eligible for the entity `v` and ranks first among all rows of `src` that are. */
  predicate LatestEligible(ctx: QueryContext, src: seq<SourceRow>, v: ViewEntity, s: SourceRow) {
    && s in src
    && AsOf(ctx, s, v)
    && forall s' :: s' in src && AsOf(ctx, s', v) ==> AtLeast(ctx.HasCreated(), s.Stamp(), s'.Stamp())
  }

  /** With an eligible source row, the left join appends to the left row's features those of
      the latest eligible one. */
  lemma LeftJoinedWithEligibleRow(ctx: QueryContext, src: seq<SourceRow>, df: seq<EntityRow>, o: OutputRow, out: OutputRow, s: SourceRow)
    requires AllHaveEntityColumns(ctx, df) && UniqueIdsDistinct(ctx, df)
    requires o.entity in df
    requires LeftJoined(ctx, ViewCleaned(ctx, src, df), o, out)
    requires s in src && AsOf(ctx, s, ViewEntityOf(ctx, o.entity))
    ensures exists s' :: LatestEligible(ctx, src, ViewEntityOf(ctx, o.entity), s') && out.features == o.features + Present(s'.features)
  {
    var cleaned := ViewCleaned(ctx, src, df);
    var v := ViewEntityOf(ctx, o.entity);
    EligibleRowIsFound(ctx, src, df, o.entity, s);
    var c :| c in cleaned && c.Uid() == v.uid && out.features == o.features + Present(c.src.features);
    FoundRowIsLatestEligible(ctx, src, df, o.entity, c);
    assert LatestEligible(ctx, src, v, c.src);
  }

  /** Without an eligible source row, the left join appends NULLs to the left row's features. */
  lemma LeftJoinedWithoutEligibleRow(ctx: QueryContext, src: seq<SourceRow>, df: seq<EntityRow>, o: OutputRow, out: OutputRow)
    requires AllHaveEntityColumns(ctx, df) && UniqueIdsDistinct(ctx, df)
    requires o.entity in df
    requires LeftJoined(ctx, ViewCleaned(ctx, src, df), o, out)
    requires forall s :: s in src ==> !AsOf(ctx, s, ViewEntityOf(ctx, o.entity))
    ensures out.features == o.features + Nulls(|ctx.features|)
  {
    NoEligibleRowNoMatch(ctx, src, df, o.entity);
  }

  /** As-of correctness of a request with one feature view, with no assumption on the width of
      the source rows: every output row belongs to an entity row; its features are NULL exactly
      when no source row is eligible, and otherwise are those of an eligible source row that
      ranks first among all eligible ones. */
  lemma SingleViewAsOf(df: seq<EntityRow>, views: seq<FeatureViewSource>, out: OutputRow)
    requires |views| == 1 && ViewsFit(df, views) && UniqueIdsDistinct(views[0].ctx, df)
    requires out in Assemble(df, views)
    ensures out.entity in df && HasEntityColumns(views[0].ctx, out.entity)
    ensures AsOfFeatures(views[0].ctx, views[0].rows, out.entity, out.features)
  {
    var ctx := views[0].ctx;
    var cleaned := ViewCleaned(ctx, views[0].rows, df);
    AssembleLastView(df, views);
    AssembleNoViews(df, views[..0]);
    var o :| o in Assemble(df, views[..0]) && LeftJoined(ctx, cleaned, o, out);
    LeftJoinedOnEntityRow(ctx, views[0].rows, df, o, out);
  }

  /** The left join of an entity row with no feature columns yet carries exactly the as-of
      features of the view. */
  lemma LeftJoinedOnEntityRow(ctx: QueryContext, src: seq<SourceRow>, df: seq<EntityRow>, o: OutputRow, out: OutputRow)
    requires AllHaveEntityColumns(ctx, df) && UniqueIdsDistinct(ctx, df)
    requires o.entity in df && o.features == []
    requires LeftJoined(ctx, ViewCleaned(ctx, src, df), o, out)
    ensures out.entity == o.entity && AsOfFeatures(ctx, src, o.entity, out.features)
  {
    var v := ViewEntityOf(ctx, o.entity);
    if s :| s in src && AsOf(ctx, s, v) {
      LeftJoinedWithEligibleRow(ctx, src, df, o, out, s);
      var s' :| LatestEligible(ctx, src, v, s') && out.features == o.features + Present(s'.features);
      assert out.features == Present(s'.features);
    } else {
      LeftJoinedWithoutEligibleRow(ctx, src, df, o, out);
      assert out.features == Nulls(|ctx.features|);
    }
  }

  // ---------------------------------------------------------------------------
  // As-of correctness over every feature view of the request

  /** A source table whose rows carry one value per entity column and per feature of the view,
      as the view's `SELECT` list makes them. */
  predicate WellFormedSource(ctx: QueryContext, src: seq<SourceRow>) {
    forall s :: s in src ==> |s.keys| == |ctx.entities| && |s.features| == |ctx.features|
  }

  predicate ViewsWellFormed(views: seq<FeatureViewSource>) {
    forall i :: 0 <= i < |views| ==> WellFormedSource(views[i].ctx, views[i].rows)
  }

  predicate IdsDistinctInEveryView(df: seq<EntityRow>, views: seq<FeatureViewSource>)
    requires ViewsFit(df, views)
  {
    forall i :: 0 <= i < |views| ==> UniqueIdsDistinct(views[i].ctx, df)
  }

  /** The number of feature columns the views contribute, in view order. */
  function Width(views: seq<FeatureViewSource>): nat {
    if |views| == 0 then 0 else Width(views[..|views| - 1]) + |views[|views| - 1].ctx.features|
  }

  /** Every row of `__cleaned` comes from the view's source table. */
  lemma CleanedRowComesFromSource(ctx: QueryContext, src: seq<SourceRow>, df: seq<EntityRow>, c: BaseRow)
    requires AllHaveEntityColumns(ctx, df) && c in ViewCleaned(ctx, src, df)
    ensures c.src in src
  {
    var base := Base(ctx, PreFilter(ctx, src, df), EntityFrame(ctx, df));
    CleanedRowRanksFirst(ctx, base, c, c);
  }

  /** The final SELECT over several views is the one over all but the last view, left-joined
      with the last view's cleaned rows. */
  lemma AssembleLastView(df: seq<EntityRow>, views: seq<FeatureViewSource>)
    requires |views| > 0 && ViewsFit(df, views)
    ensures ViewsFit(df, views[..|views| - 1])
    ensures var v := views[|views| - 1];
            && RowsHaveEntityColumns(v.ctx, Assemble(df, views[..|views| - 1]))
            && Assemble(df, views) == LeftJoinView(v.ctx, ViewCleaned(v.ctx, v.rows, df), Assemble(df, views[..|views| - 1]))
  {
    var init := views[..|views| - 1];
    var v := views[|views| - 1];
    assert ViewsFit(df, init) by {
      forall i | 0 <= i < |init| ensures AllHaveEntityColumns(init[i].ctx, df) {
        assert init[i] == views[i];
      }
    }
    assert AllHaveEntityColumns(v.ctx, df);
    var prev := Assemble(df, init);
    assert RowsHaveEntityColumns(v.ctx, prev) by {
      forall o | o in prev ensures HasEntityColumns(v.ctx, o.entity) {
        assert o.entity in df;
      }
    }
  }

  /** Without feature views the final SELECT is the entity table with no feature columns. */
  lemma AssembleNoViews(df: seq<EntityRow>, views: seq<FeatureViewSource>)
    requires |views| == 0
    ensures ViewsFit(df, views)
    ensures forall out :: out in Assemble(df, views) ==> out.entity in df && out.features == []
  {
  }

  lemma InitViewsWellFormed(views: seq<FeatureViewSource>)
    requires |views| > 0 && ViewsWellFormed(views)
    ensures ViewsWellFormed(views[..|views| - 1])
  {
    var init := views[..|views| - 1];
    forall i | 0 <= i < |init| ensures WellFormedSource(init[i].ctx, init[i].rows) {
      assert init[i] == views[i];
    }
  }

  lemma InitViewsIdsDistinct(df: seq<EntityRow>, views: seq<FeatureViewSource>)
    requires |views| > 0 && ViewsFit(df, views) && IdsDistinctInEveryView(df, views)
    ensures ViewsFit(df, views[..|views| - 1]) && IdsDistinctInEveryView(df, views[..|views| - 1])
  {
    var init := views[..|views| - 1];
    forall i | 0 <= i < |init| ensures AllHaveEntityColumns(init[i].ctx, df) && UniqueIdsDistinct(init[i].ctx, df) {
      assert init[i] == views[i];
    }
  }

  /** One left join over a well-formed source appends one column per feature of the view. */
  lemma LeftJoinedWidth(ctx: QueryContext, src: seq<SourceRow>, df: seq<EntityRow>, o: OutputRow, out: OutputRow)
    requires AllHaveEntityColumns(ctx, df) && WellFormedSource(ctx, src) && HasEntityColumns(ctx, o.entity)
    requires LeftJoined(ctx, ViewCleaned(ctx, src, df), o, out)
    ensures |out.features| == |o.features| + |ctx.features|
  {
    var uid := ViewEntityOf(ctx, o.entity).uid;
    if c :| c in ViewCleaned(ctx, src, df) && c.Uid() == uid && out.features == o.features + Present(c.src.features) {
      CleanedRowComesFromSource(ctx, src, df, c);
    }
  }

  predicate AllOfWidth(rows: seq<OutputRow>, n: nat) {
    forall o :: o in rows ==> |o.features| == n
  }

  /** Left-joining one more well-formed view widens every row by that view's features. */
  lemma LeftJoinViewWidth(df: seq<EntityRow>, views: seq<FeatureViewSource>, rows: seq<OutputRow>)
    requires |views| > 0 && ViewsFit(df, views) && ViewsWellFormed(views)
    requires forall o :: o in rows ==> o.entity in df
    requires AllOfWidth(rows, Width(views[..|views| - 1]))
    ensures var v := views[|views| - 1];
            && RowsHaveEntityColumns(v.ctx, rows)
            && AllOfWidth(LeftJoinView(v.ctx, ViewCleaned(v.ctx, v.rows, df), rows), Width(views))
  {
    var v := views[|views| - 1];
    assert AllHaveEntityColumns(v.ctx, df) && WellFormedSource(v.ctx, v.rows);
    var cleaned := ViewCleaned(v.ctx, v.rows, df);
    assert RowsHaveEntityColumns(v.ctx, rows);
    forall out | out in LeftJoinView(v.ctx, cleaned, rows) ensures |out.features| == Width(views) {
      var o :| o in rows && LeftJoined(v.ctx, cleaned, o, out);
      LeftJoinedWidth(v.ctx, v.rows, df, o, out);
    }
  }

  /** Over well-formed sources every row of the final SELECT has one feature column per feature
      of every view. */
  lemma {:induction false} AssembleWidth(df: seq<EntityRow>, views: seq<FeatureViewSource>)
    requires ViewsFit(df, views) && ViewsWellFormed(views)
    ensures AllOfWidth(Assemble(df, views), Width(views))
  {
    if |views| == 0 {
      AssembleNoViews(df, views);
    } else {
      var init := views[..|views| - 1];
      AssembleLastView(df, views);
      InitViewsWellFormed(views);
      AssembleWidth(df, init);
      LeftJoinViewWidth(df, views, Assemble(df, init));
    }
  }

  predicate EntityFitsViews(views: seq<FeatureViewSource>, e: EntityRow) {
    forall i :: 0 <= i < |views| ==> HasEntityColumns(views[i].ctx, e)
  }

  /** `features` are the as-of features of the entity row `e` for one view over `src`: NULLs
      when no source row is eligible, otherwise the features of the latest eligible one. */
  predicate AsOfFeatures(ctx: QueryContext, src: seq<SourceRow>, e: EntityRow, features: seq<Option<Value>>)
    requires HasEntityColumns(ctx, e)
  {
    var v := ViewEntityOf(ctx, e);
    && ((forall s :: s in src ==> !AsOf(ctx, s, v)) ==> features == Nulls(|ctx.features|))
    && ((exists s :: s in src && AsOf(ctx, s, v)) ==>
          exists s :: s in src && LatestEligible(ctx, src, v, s) && features == Present(s.features))
  }

  /** `features` is, view after view, the as-of features of `e` in each view. */
  predicate AsOfRow(views: seq<FeatureViewSource>, e: EntityRow, features: seq<Option<Value>>)
    requires EntityFitsViews(views, e)
    decreases |views|
  {
    if |views| == 0 then features == []
    else
      var v := views[|views| - 1];
      var w := |v.ctx.features|;
      && |features| >= w
      && AsOfRow(views[..|views| - 1], e, features[..|features| - w])
      && AsOfFeatures(v.ctx, v.rows, e, features[|features| - w..])
  }

  /** The last view's columns of an as-of row are its as-of features. */
  lemma AsOfRowLastSlice(views: seq<FeatureViewSource>, e: EntityRow, features: seq<Option<Value>>)
    requires EntityFitsViews(views, e) && AsOfRow(views, e, features) && |features| == Width(views) && |views| > 0
    ensures var i := |views| - 1;
            && Width(views[..i]) <= Width(views[..i + 1]) == |features|
            && AsOfFeatures(views[i].ctx, views[i].rows, e, features[Width(views[..i])..Width(views[..i + 1])])
  {
    var i := |views| - 1;
    var w := |views[i].ctx.features|;
    assert views[..i + 1] == views;
    assert views[..i] == views[..|views| - 1];
    assert Width(views[..i]) == |features| - w;
    assert features[Width(views[..i])..Width(views[..i + 1])] == features[|features| - w..];
  }

  /** The columns of view `i` in an as-of row are the as-of features of that view. */
  lemma {:induction false} AsOfRowSlice(views: seq<FeatureViewSource>, e: EntityRow, features: seq<Option<Value>>, i: nat)
    requires EntityFitsViews(views, e) && AsOfRow(views, e, features) && |features| == Width(views) && i < |views|
    ensures Width(views[..i]) <= Width(views[..i + 1]) <= |features|
    ensures AsOfFeatures(views[i].ctx, views[i].rows, e, features[Width(views[..i])..Width(views[..i + 1])])
  {
    if i == |views| - 1 {
      AsOfRowLastSlice(views, e, features);
    } else {
      var init := views[..|views| - 1];
      var prefix := features[..|features| - |views[|views| - 1].ctx.features|];
      AsOfRowInit(views, e, features);
      AsOfRowSlice(init, e, prefix, i);
      SliceOfInit(views, features, prefix, i);
    }
  }

  /** An as-of row over several views starts with an as-of row over all but the last one. */
  lemma AsOfRowInit(views: seq<FeatureViewSource>, e: EntityRow, features: seq<Option<Value>>)
    requires EntityFitsViews(views, e) && AsOfRow(views, e, features) && |features| == Width(views) && |views| > 0
    ensures var prefix := features[..|features| - |views[|views| - 1].ctx.features|];
            && EntityFitsViews(views[..|views| - 1], e)
            && AsOfRow(views[..|views| - 1], e, prefix)
            && |prefix| == Width(views[..|views| - 1])
  {
    assert EntityFitsViews(views[..|views| - 1], e);
  }

  /** The columns of an earlier view are the same in the row and in its prefix over all but the
      last view. */
  lemma SliceOfInit(views: seq<FeatureViewSource>, features: seq<Option<Value>>, prefix: seq<Option<Value>>, i: nat)
    requires |views| > 0 && i < |views| - 1
    requires prefix <= features
    requires var init := views[..|views| - 1];
             Width(init[..i]) <= Width(init[..i + 1]) <= |prefix|
    ensures Width(views[..i]) <= Width(views[..i + 1]) <= |prefix|
    ensures var init := views[..|views| - 1];
            features[Width(views[..i])..Width(views[..i + 1])] == prefix[Width(init[..i])..Width(init[..i + 1])]
  {
    var init := views[..|views| - 1];
    assert views[..i] == init[..i] && views[..i + 1] == init[..i + 1];
  }

  /** One left join over a well-formed source keeps the left row's features as a prefix and
      appends the as-of features of the view. */
  lemma LeftJoinedIsAsOf(ctx: QueryContext, src: seq<SourceRow>, df: seq<EntityRow>, o: OutputRow, out: OutputRow)
    requires AllHaveEntityColumns(ctx, df) && UniqueIdsDistinct(ctx, df) && WellFormedSource(ctx, src)
    requires o.entity in df
    requires LeftJoined(ctx, ViewCleaned(ctx, src, df), o, out)
    ensures |out.features| == |o.features| + |ctx.features|
    ensures out.features[..|o.features|] == o.features
    ensures AsOfFeatures(ctx, src, o.entity, out.features[|o.features|..])
  {
    var v := ViewEntityOf(ctx, o.entity);
    if s :| s in src && AsOf(ctx, s, v) {
      LeftJoinedWithEligibleRow(ctx, src, df, o, out, s);
      var s' :| LatestEligible(ctx, src, v, s') && out.features == o.features + Present(s'.features);
      assert out.features[|o.features|..] == Present(s'.features);
    } else {
      LeftJoinedWithoutEligibleRow(ctx, src, df, o, out);
      assert out.features[|o.features|..] == Nulls(|ctx.features|);
    }
  }

  /** Every row is the as-of row of its entity row over `views`. */
  predicate RowsAsOf(df: seq<EntityRow>, views: seq<FeatureViewSource>, rows: seq<OutputRow>) {
    forall o :: o in rows ==>
      && o.entity in df
      && EntityFitsViews(views, o.entity)
      && AsOfRow(views, o.entity, o.features)
  }

  /** A row left-joined from an as-of row over all but the last view is an as-of row over all
      the views. */
  lemma LeftJoinedStaysAsOf(df: seq<EntityRow>, views: seq<FeatureViewSource>, o: OutputRow, out: OutputRow)
    requires |views| > 0 && ViewsFit(df, views) && ViewsWellFormed(views) && IdsDistinctInEveryView(df, views)
    requires o.entity in df && EntityFitsViews(views[..|views| - 1], o.entity)
    requires AsOfRow(views[..|views| - 1], o.entity, o.features)
    requires var v := views[|views| - 1];
             HasEntityColumns(v.ctx, o.entity) && LeftJoined(v.ctx, ViewCleaned(v.ctx, v.rows, df), o, out)
    ensures out.entity in df && EntityFitsViews(views, out.entity) && AsOfRow(views, out.entity, out.features)
  {
    var v := views[|views| - 1];
    assert AllHaveEntityColumns(v.ctx, df) && UniqueIdsDistinct(v.ctx, df) && WellFormedSource(v.ctx, v.rows);
    LeftJoinedIsAsOf(v.ctx, v.rows, df, o, out);
    var w := |v.ctx.features|;
    assert out.features[..|out.features| - w] == o.features;
    assert out.features[|out.features| - w..] == out.features[|o.features|..];
    assert EntityFitsViews(views, out.entity);
  }

  /** Left-joining one more view keeps every row as-of, now over that view as well. */
  lemma LeftJoinViewAsOf(df: seq<EntityRow>, views: seq<FeatureViewSource>, rows: seq<OutputRow>)
    requires |views| > 0 && ViewsFit(df, views) && ViewsWellFormed(views) && IdsDistinctInEveryView(df, views)
    requires RowsAsOf(df, views[..|views| - 1], rows)
    ensures var v := views[|views| - 1];
            && RowsHaveEntityColumns(v.ctx, rows)
            && RowsAsOf(df, views, LeftJoinView(v.ctx, ViewCleaned(v.ctx, v.rows, df), rows))
  {
    var v := views[|views| - 1];
    assert AllHaveEntityColumns(v.ctx, df);
    var cleaned := ViewCleaned(v.ctx, v.rows, df);
    assert RowsHaveEntityColumns(v.ctx, rows);
    forall out | out in LeftJoinView(v.ctx, cleaned, rows)
      ensures out.entity in df && EntityFitsViews(views, out.entity) && AsOfRow(views, out.entity, out.features)
    {
      var o :| o in rows && LeftJoined(v.ctx, cleaned, o, out);
      LeftJoinedStaysAsOf(df, views, o, out);
    }
  }

  lemma {:induction false} AssembleAsOf(df: seq<EntityRow>, views: seq<FeatureViewSource>)
    requires ViewsFit(df, views) && ViewsWellFormed(views) && IdsDistinctInEveryView(df, views)
    ensures RowsAsOf(df, views, Assemble(df, views))
  {
    if |views| == 0 {
      AssembleNoViews(df, views);
    } else {
      var init := views[..|views| - 1];
      AssembleLastView(df, views);
      InitViewsWellFormed(views);
      InitViewsIdsDistinct(df, views);
      AssembleAsOf(df, init);
      LeftJoinViewAsOf(df, views, Assemble(df, init));
    }
  }

  /** As-of correctness of the whole query: every output row belongs to an entity row, has one
      feature column per feature of every view, and its feature columns are, view after view,
      NULL when no source row of that view is eligible and otherwise the features of an eligible
      row that ranks first among all eligible ones. */
  lemma AsOfEveryView(df: seq<EntityRow>, views: seq<FeatureViewSource>, out: OutputRow)
    requires ViewsFit(df, views) && ViewsWellFormed(views) && IdsDistinctInEveryView(df, views)
    requires out in Assemble(df, views)
    ensures out.entity in df && EntityFitsViews(views, out.entity)
    ensures |out.features| == Width(views)
    ensures AsOfRow(views, out.entity, out.features)
  {
    AssembleWidth(df, views);
    AssembleAsOf(df, views);
  }

  /** The columns of view `i` in any output row of the whole query: NULL when no source row of
      that view is eligible for the row's entity, otherwise the features of the latest eligible
      source row. */
  lemma ViewColumnsAsOf(df: seq<EntityRow>, views: seq<FeatureViewSource>, out: OutputRow, i: nat)
    requires ViewsFit(df, views) && ViewsWellFormed(views) && IdsDistinctInEveryView(df, views)
    requires out in Assemble(df, views) && i < |views|
    ensures out.entity in df && HasEntityColumns(views[i].ctx, out.entity)
    ensures Width(views[..i]) <= Width(views[..i + 1]) <= |out.features|
    ensures var v := ViewEntityOf(views[i].ctx, out.entity);
            var slice := out.features[Width(views[..i])..Width(views[..i + 1])];
            && ((forall s :: s in views[i].rows ==> !AsOf(views[i].ctx, s, v)) ==> slice == Nulls(|views[i].ctx.features|))
            && ((exists s :: s in views[i].rows && AsOf(views[i].ctx, s, v)) ==>
                  exists s :: LatestEligible(views[i].ctx, views[i].rows, v, s) && slice == Present(s.features))
  {
    AsOfEveryView(df, views, out);
    AsOfRowSlice(views, out.entity, out.features, i);
  }
}

=== FILE: ranking.dfy ===
/** The temporal ordering both compilers rank rows by:
    `ORDER BY event_timestamp DESC [, created_timestamp DESC]`. The secondary key takes
    part only when the feature view declares a created-timestamp column. */
module Ranking {

  /** The versioning timestamps of one row, in seconds. */
  datatype Stamp = Stamp(eventTs: int, createdTs: int)

  /** `a` comes no later than `b` in the descending order, i.e. `a` is at least as recent. */
  predicate AtLeast(byCreated: bool, a: Stamp, b: Stamp) {
    a.eventTs > b.eventTs || (a.eventTs == b.eventTs && (!byCreated || a.createdTs >= b.createdTs))
  }

  /** `a` and `b` tie in the order (both would be candidates for rank 1). */
  predicate SameRank(byCreated: bool, a: Stamp, b: Stamp) {
    a.eventTs == b.eventTs && (!byCreated || a.createdTs == b.createdTs)
  }

  /** The order is total, transitive, and two rows rank above each other exactly when they tie. */
  lemma AtLeastIsTotalPreorder(byCreated: bool, a: Stamp, b: Stamp, c: Stamp)
    ensures AtLeast(byCreated, a, a)
    ensures AtLeast(byCreated, a, b) || AtLeast(byCreated, b, a)
    ensures AtLeast(byCreated, a, b) && AtLeast(byCreated, b, c) ==> AtLeast(byCreated, a, c)
    ensures AtLeast(byCreated, a, b) && AtLeast(byCreated, b, a) <==> SameRank(byCreated, a, b)
  {
  }

  /** The first row of `rows` that ranks at the top: what `ROW_NUMBER() ... = 1` keeps when
      the order has no ties, and one admissible choice when it has. */
  function Top<T>(rows: seq<T>, stamp: T -> Stamp, byCreated: bool): (r: T)
    requires |rows| > 0
    ensures r in rows
    ensures forall x :: x in rows ==> AtLeast(byCreated, stamp(r), stamp(x))
  {
    if |rows| == 1 then rows[0]
    else
      var t := Top(rows[1..], stamp, byCreated);
      assert forall x :: x in rows ==> x == rows[0] || x in rows[1..];
      if AtLeast(byCreated, stamp(rows[0]), stamp(t)) then rows[0] else t
  }
}

=== FILE: retrieval.dfy ===
/** The retrieval job the compilers return and its two text operations: `to_sql` hands back
    the compiled query, and `to_trino` names a fresh destination table and wraps the query in a
    `CREATE TABLE <destination> AS (<query>)` statement. The current date and the random UUID
    are parameters. */
module Retrieval {
  import opened Common
  import opened Snapshot

  /** The Trino offline-store settings the compiler reads. The connection settings (host, port,
      catalog) only reach the Trino client, which is not part of this model. */
  datatype StoreConfig = StoreConfig(dataset: string)

  /** A retrieval job: the compiled query, the client's project, the store's dataset and
      whether feature columns carry their view name. */
  datatype RetrievalJob = RetrievalJob(query: string, project: string, dataset: string, fullFeatureNames: bool)

  /** `to_sql`: the stored query, unchanged. */
  function ToSql(job: RetrievalJob): (r: string)
    ensures r == job.query
  {
    job.query
  }

  // ---------------------------------------------------------------------------
  // The date stamp and the random suffix

  datatype Date = Date(year: nat, month: nat, day: nat)

  /** The dates `strftime("%Y%m%d")` renders as eight digits. */
  predicate ValidDate(d: Date) {
    1000 <= d.year <= 9999 && 1 <= d.month <= 12 && 1 <= d.day <= 31
  }

  /** Reads a `%Y%m%d` stamp back into its date. */
  function ParseDateStamp(s: string): Option<Date>
  {
    if |s| == 8 && IsDigits(s) then
      assert IsDigits(s[..4]) && IsDigits(s[4..6]) && IsDigits(s[6..]);
      Some(Date(DigitsValue(s[..4]), DigitsValue(s[4..6]), DigitsValue(s[6..])))
    else None
  }

  /** `date.strftime("%Y%m%d")`: zero-padded year, month and day, eight digits in all. */
  function DateStamp(d: Date): (r: string)
    requires ValidDate(d)
    ensures |r| == 8 && IsDigits(r)
    ensures ParseDateStamp(r) == Some(d)
  {
    var y := FixedDigits(d.year, 4);
    var m := FixedDigits(d.month, 2);
    var dd := FixedDigits(d.day, 2);
    var r := y + m + dd;
    assert r[..4] == y && r[4..6] == m && r[6..] == dd;
    r
  }

  /** Different days give different stamps. */
  lemma DateStampInjective(a: Date, b: Date)
    requires ValidDate(a) && ValidDate(b) && DateStamp(a) == DateStamp(b)
    ensures a == b
  {
    assert Some(a) == ParseDateStamp(DateStamp(a)) == ParseDateStamp(DateStamp(b)) == Some(b);
  }

  /** Different days give different stamps, stated forwards. */
  lemma DateStampsDiffer(a: Date, b: Date)
    requires ValidDate(a) && ValidDate(b) && a != b
    ensures DateStamp(a) != DateStamp(b)
  {
    assert ParseDateStamp(DateStamp(a)) != ParseDateStamp(DateStamp(b));
  }

  /** `str(uuid)[:7]`: the first seven characters, or the whole text when it is shorter. */
  function RandomSuffix(uuidText: string): (r: string)
    ensures r <= uuidText
    ensures |uuidText| >= 7 ==> |r| == 7
    ensures |uuidText| < 7 ==> r == uuidText
  {
    if |uuidText| <= 7 then uuidText else uuidText[..7]
  }

  // ---------------------------------------------------------------------------
  // The destination table

  const HistoricalPrefix := "historical_"

  /** `<project>.<dataset>.historical_<stamp>_<suffix>` */
  function DestinationTable(project: string, dataset: string, stamp: string, suffix: string): string {
    project + "." + dataset + "." + HistoricalPrefix + stamp + "_" + suffix
  }

  /** Where the eight-character stamp starts in a destination name. */
  function StampOffset(project: string, dataset: string): nat {
    |project| + 1 + |dataset| + 1 + |HistoricalPrefix|
  }

  /** Whatever the project and dataset names, the name has the fixed prefix, then the stamp at
      `StampOffset`, then `_` and the suffix. */
  lemma DestinationLayout(project: string, dataset: string, stamp: string, suffix: string)
    requires |stamp| == 8
    ensures var dest := DestinationTable(project, dataset, stamp, suffix);
            var k := StampOffset(project, dataset);
            && |dest| == k + 9 + |suffix|
            && dest[..k] == project + "." + dataset + "." + HistoricalPrefix
            && dest[k..k + 8] == stamp
            && dest[k + 8..] == "_" + suffix
  {
    var head := project + "." + dataset + "." + HistoricalPrefix;
    var dest := DestinationTable(project, dataset, stamp, suffix);
    assert dest == head + stamp + ("_" + suffix);
    assert |head| == StampOffset(project, dataset);
  }

  datatype DestinationParts = DestinationParts(project: string, dataset: string, stamp: string, suffix: string)

  /** Splits a destination name at its first two dots and reads the eight-character stamp and
      the suffix out of the table name. */
  function ParseDestination(dest: string): Option<DestinationParts>
  {
    match SplitOnce(dest, '.')
    case None => None
    case Some((project, rest)) =>
      match SplitOnce(rest, '.')
      case None => None
      case Some((dataset, table)) =>
        if |table| >= 20 && table[..11] == HistoricalPrefix && table[19] == '_' then
          Some(DestinationParts(project, dataset, table[11..19], table[20..]))
        else None
  }

  /** The destination name determines its parts, provided the project and dataset names
      contain no dot (a dotted name would be split at the wrong place). */
  lemma DestinationRoundTrip(project: string, dataset: string, stamp: string, suffix: string)
    requires '.' !in project && '.' !in dataset && |stamp| == 8
    ensures ParseDestination(DestinationTable(project, dataset, stamp, suffix))
              == Some(DestinationParts(project, dataset, stamp, suffix))
  {
    var table := HistoricalPrefix + stamp + "_" + suffix;
    var rest := dataset + "." + table;
    assert DestinationTable(project, dataset, stamp, suffix) == project + ['.'] + rest;
    SplitOnceJoined(project, '.', rest);
    assert rest == dataset + ['.'] + table;
    SplitOnceJoined(dataset, '.', table);
    assert table[..11] == HistoricalPrefix;
    assert table[11..19] == stamp;
    assert table[19] == '_';
    assert table[20..] == suffix;
  }

  // ---------------------------------------------------------------------------
  // The export statement

  /** `CREATE TABLE <dest> AS (<query>)` */
  function CreateTableAs(dest: string, query: string): string {
    "CREATE TABLE " + dest + " AS (" + query + ")"
  }

  /** The query inside a `CREATE TABLE <dest> AS (...)` statement. */
  function UnwrapCreateTableAs(statement: string, dest: string): Option<string>
  {
    var head := "CREATE TABLE " + dest + " AS (";
    if |statement| > |head| && statement[..|head|] == head && statement[|statement| - 1] == ')' then
      Some(statement[|head|..|statement| - 1])
    else None
  }

  lemma CreateTableAsRoundTrip(dest: string, query: string)
    ensures UnwrapCreateTableAs(CreateTableAs(dest, query), dest) == Some(query)
  {
    var head := "CREATE TABLE " + dest + " AS (";
    var statement := CreateTableAs(dest, query);
    assert statement == head + query + ")";
    assert statement[..|head|] == head;
    assert statement[|head|..|statement| - 1] == query;
  }

  /** What `to_trino` executes and returns. */
  datatype Export = Export(statement: string, destination: string)

  /** `to_trino`: exports the job's query into a new table named after the project, the
      dataset, the day and a random suffix, and returns that name. */
  function ToTrino(job: RetrievalJob, today: Date, uuidText: string): (r: Export)
    requires ValidDate(today)
    ensures UnwrapCreateTableAs(r.statement, r.destination) == Some(ToSql(job))
    ensures var k := StampOffset(job.project, job.dataset);
            && |r.destination| >= k + 9
            && r.destination[..k] == job.project + "." + job.dataset + "." + HistoricalPrefix
            && r.destination[k..k + 8] == DateStamp(today)
            && r.destination[k + 8..] == "_" + RandomSuffix(uuidText)
    ensures '.' !in job.project && '.' !in job.dataset ==>
              ParseDestination(r.destination)
                == Some(DestinationParts(job.project, job.dataset, DateStamp(today), RandomSuffix(uuidText)))
  {
    var stamp := DateStamp(today);
    var suffix := RandomSuffix(uuidText);
    var dest := DestinationTable(job.project, job.dataset, stamp, suffix);
    ExportReadsBack(job, stamp, suffix);
    Export(CreateTableAs(dest, job.query), dest)
  }

  /** The export statement and the destination name of a job, for any stamp of eight characters
      and any suffix. */
  lemma ExportReadsBack(job: RetrievalJob, stamp: string, suffix: string)
    requires |stamp| == 8
    ensures var dest := DestinationTable(job.project, job.dataset, stamp, suffix);
            var k := StampOffset(job.project, job.dataset);
            && UnwrapCreateTableAs(CreateTableAs(dest, job.query), dest) == Some(ToSql(job))
            && |dest| >= k + 9
            && dest[..k] == job.project + "." + job.dataset + "." + HistoricalPrefix
            && dest[k..k + 8] == stamp
            && dest[k + 8..] == "_" + suffix
            && ('.' !in job.project && '.' !in job.dataset ==>
                  ParseDestination(dest) == Some(DestinationParts(job.project, job.dataset, stamp, suffix)))
  {
    var dest := DestinationTable(job.project, job.dataset, stamp, suffix);
    CreateTableAsRoundTrip(dest, job.query);
    DestinationLayout(job.project, job.dataset, stamp, suffix);
    if '.' !in job.project && '.' !in job.dataset {
      DestinationRoundTrip(job.project, job.dataset, stamp, suffix);
    }
  }

  /** Exports of the same job on different days go to different tables. */
  lemma ExportsOnDifferentDaysDiffer(job: RetrievalJob, d1: Date, d2: Date, u1: string, u2: string)
    requires ValidDate(d1) && ValidDate(d2) && d1 != d2
    ensures ToTrino(job, d1, u1).destination != ToTrino(job, d2, u2).destination
  {
    var k := StampOffset(job.project, job.dataset);
    DateStampsDiffer(d1, d2);
    assert ToTrino(job, d1, u1).destination[k..k + 8] != ToTrino(job, d2, u2).destination[k..k + 8];
  }

  // ---------------------------------------------------------------------------
  // The snapshot job

  /** `pull_latest_from_table_or_query`: the job for the snapshot query over one source.
      A single view is materialised, so feature names are never qualified. */
  function PullLatestFromTableOrQuery(
    config: StoreConfig,
    project: string,
    fromExpression: string,
    joinKeys: seq<string>,
    features: seq<string>,
    eventColumn: string,
    createdColumn: Option<string>,
    startText: string,
    endText: string): (job: RetrievalJob)
    ensures !job.fullFeatureNames
    ensures job.project == project && job.dataset == config.dataset
    ensures var fields := Join(", ", joinKeys + features + TimestampColumns(eventColumn, createdColumn));
            var dummy := if joinKeys == [] then ", '' AS __dummy_id" else "";
            SnapshotHeader(fields, dummy) <= ToSql(job)
    ensures var partition := if joinKeys == [] || joinKeys == [""] then "" else "PARTITION BY " + Join(", ", joinKeys);
            var order := if Truthy(createdColumn) then eventColumn + " DESC, " + createdColumn.value + " DESC"
                         else eventColumn + " DESC";
            IsInfix(RankingClause(partition, order), ToSql(job))
    ensures IsInfix("FROM " + fromExpression + "\n", ToSql(job))
    ensures IsInfix(WindowFilter(eventColumn, startText, endText), ToSql(job))
    ensures |ToSql(job)| >= |FirstRowFilter| && ToSql(job)[|ToSql(job)| - |FirstRowFilter|..] == FirstRowFilter
  {
    var q := CompileSnapshot(fromExpression, joinKeys, features, eventColumn, createdColumn, startText, endText);
    CompiledClauses(fromExpression, joinKeys, features, eventColumn, createdColumn, startText, endText);
    var text := RenderSnapshot(q);
    RetrievalJob(text, project, config.dataset, false)
  }
}

=== FILE: scenario.dfy ===
/** The worked example of the point-in-time join: one view `F` keyed by `id`, a one-hour
    ttl, no created-timestamp column, and source rows at 10:00 (v = 5) and 10:30 (v = 7).
    Times are seconds since midnight. */
module Scenario {
  import opened Common
  import opened Ranking
  import opened Schema
  import opened PointInTime

  const View := QueryContext("F", ["id"], ["v"], "event_timestamp", None, 3600, "f_source")
  const Source := [SourceRow(["1"], 36000, 0, ["5"]), SourceRow(["1"], 37800, 0, ["7"])]
  const Request := [EntityRow(map["id" := "1"], 38700),
                    EntityRow(map["id" := "1"], 32400),
                    EntityRow(map["id" := "1"], 36900)]

  /** Every request row carries the view's key, with value "1". */
  lemma RequestKeys()
    ensures AllHaveEntityColumns(View, Request)
    ensures forall e :: e in Request ==> KeyValues(View, e) == ["1"]
  {
    forall e | e in Request ensures HasEntityColumns(View, e) && KeyValues(View, e) == ["1"] {
      assert e.columns == map["id" := "1"];
    }
  }

  /** The rows eligible for a request with key "1" at time `t`, and the one that ranks first. */
  lemma LatestEligibleAt(v: ViewEntity, s: SourceRow)
    requires v.keys == ["1"] && LatestEligible(View, Source, v, s)
    ensures v.timestamp >= 37800 ==> s == Source[1]
    ensures 36000 <= v.timestamp < 37800 ==> s == Source[0]
  {
    if v.timestamp >= 37800 {
      assert AsOf(View, Source[1], v);
    }
  }

  lemma NothingEligibleAt(v: ViewEntity)
    requires v.keys == ["1"] && v.timestamp < 36000
    ensures forall s :: s in Source ==> !AsOf(View, s, v)
  {
  }

  lemma OneColumn(x: Value)
    ensures Present([x]) == [Some(x)] && Nulls(1) == [None]
  {
  }

  /** What the as-of theorem leaves for each request row of the example. */
  lemma ScenarioFeatures(e: EntityRow, features: seq<Option<Value>>)
    requires e in Request
    requires AsOfFeatures(View, Source, e, features)
    ensures e.timestamp == 38700 ==> features == [Some("7")]
    ensures e.timestamp == 32400 ==> features == [None]
    ensures e.timestamp == 36900 ==> features == [Some("5")]
  {
    RequestKeys();
    OneColumn("5");
    OneColumn("7");
    var v := ViewEntityOf(View, e);
    assert v.keys == ["1"] && v.timestamp == e.timestamp;
    if e.timestamp == 38700 {
      assert AsOf(View, Source[1], v);
      var s :| LatestEligible(View, Source, v, s) && features == Present(s.features);
      LatestEligibleAt(v, s);
    } else if e.timestamp == 32400 {
      NothingEligibleAt(v);
    } else if e.timestamp == 36900 {
      assert AsOf(View, Source[0], v);
      var s :| LatestEligible(View, Source, v, s) && features == Present(s.features);
      LatestEligibleAt(v, s);
    }
  }

  /** Request 10:45 gets 7; request 09:00 gets NULL (outside the ttl window, nothing earlier);
      request 10:15 gets 5 (the 10:30 row is not visible yet). */
  lemma AsOfScenario(df: seq<EntityRow>, view: FeatureViewSource, out: OutputRow)
    requires df == Request && view == FeatureViewSource(View, Source)
    requires ViewsFit(df, [view]) && out in Assemble(df, [view])
    ensures out.entity.timestamp == 38700 ==> out.features == [Some("7")]
    ensures out.entity.timestamp == 32400 ==> out.features == [None]
    ensures out.entity.timestamp == 36900 ==> out.features == [Some("5")]
  {
    RequestKeys();
    UniqueIdsDistinctForOneKey(View, df);
    SingleViewAsOf(df, [view], out);
    ScenarioFeatures(out.entity, out.features);
  }
}

=== FILE: schema.dfy ===
/** The data the compilers work on: one query context per feature view, the rows of a
    feature view's source table, and the rows of the entity request table. */
module Schema {
  import opened Common
  import opened Ranking

  /** A column value. Values are compared for equality only (join keys) or carried
      through unchanged (features), so their text stands for them. */
  type Value = string

  /** One feature view's join inputs. `ttl` is in seconds and 0 means an unbounded look-back. */
  datatype QueryContext = QueryContext(
    name: string,
    entities: seq<string>,
    features: seq<string>,
    eventTimestampColumn: string,
    createdTimestampColumn: Option<string>,
    ttl: nat,
    tableSubquery: string)
  {
    /** The `{% if featureview.created_timestamp_column %}` test of the join template. */
    predicate HasCreated() {
      Truthy(createdTimestampColumn)
    }
  }

  /** A row of a feature view's source: its join-key values in the order of the view's
      entities, its timestamps, and its feature values in the order of the view's features. */
  datatype SourceRow = SourceRow(keys: seq<Value>, eventTs: int, createdTs: int, features: seq<Value>)
  {
    function Stamp(): Stamp {
      Ranking.Stamp(eventTs, createdTs)
    }
  }

  /** A row of the entity request table: its columns by name and its event timestamp. */
  datatype EntityRow = EntityRow(columns: map<string, Value>, timestamp: int)

  /** The name a feature column carries in the output: `<view>__<feature>` when the
      caller asks for full feature names, the bare feature name otherwise. */
  function OutputFeatureName(view: string, feature: string, fullFeatureNames: bool): string
  {
    if fullFeatureNames then view + "__" + feature else feature
  }

  /** Recovers the feature name from a qualified output column of view `view`. */
  function StripViewPrefix(view: string, column: string): Option<string>
  {
    var prefix := view + "__";
    if |prefix| <= |column| && column[..|prefix|] == prefix then Some(column[|prefix|..]) else None
  }

  /** Qualification only prefixes the name: it can be undone, and the bare mode keeps the name. */
  lemma OutputFeatureNameRoundTrip(view: string, feature: string)
    ensures StripViewPrefix(view, OutputFeatureName(view, feature, true)) == Some(feature)
    ensures OutputFeatureName(view, feature, false) == feature
  {
    var column := OutputFeatureName(view, feature, true);
    assert column[..|view| + 2] == view + "__";
    assert column[|view| + 2..] == feature;
  }

  /** The feature column names one view contributes to the output, in the view's feature order. */
  function FeatureColumns(ctx: QueryContext, fullFeatureNames: bool): (r: seq<string>)
    ensures |r| == |ctx.features|
    ensures forall i :: 0 <= i < |r| && fullFeatureNames ==>
              StripViewPrefix(ctx.name, r[i]) == Some(ctx.features[i])
    ensures !fullFeatureNames ==> r == ctx.features
  {
    var r := seq(|ctx.features|, i requires 0 <= i < |ctx.features| =>
      OutputFeatureName(ctx.name, ctx.features[i], fullFeatureNames));
    assert forall i :: 0 <= i < |r| && fullFeatureNames ==>
        StripViewPrefix(ctx.name, r[i]) == Some(ctx.features[i]) by {
      forall i | 0 <= i < |r| && fullFeatureNames
        ensures StripViewPrefix(ctx.name, r[i]) == Some(ctx.features[i])
      {
        OutputFeatureNameRoundTrip(ctx.name, ctx.features[i]);
      }
    }
    r
  }
}

=== FILE: snapshot.dfy ===
/** The "latest snapshot" compiler behind `pull_latest_from_table_or_query`
    (feast-trino/trino.py:104-155): the clause strings it assembles, the query text it
    emits, and what that query selects from a source table. */
module Snapshot {
  import opened Common
  import opened Ranking
  import opened Schema

  /** `DUMMY_ENTITY_ID` of the feature-view module the compiler imports. */
  const DummyEntityId := "__dummy_id"
  /** `repr(DUMMY_ENTITY_VAL)`, the empty string rendered as a Python literal. */
  const DummyEntityLiteral := "''"

  // ---------------------------------------------------------------------------
  // Clause strings

  /** `PARTITION BY k1, k2, ...`, or nothing when the joined key list is empty text. */
  function PartitionClause(joinKeys: seq<string>): string
  {
    var keys := Join(", ", joinKeys);
    if keys != "" then "PARTITION BY " + keys else ""
  }

  /** The partition clause is empty exactly when there is no key (or a single empty name),
      and otherwise partitions by the comma-separated keys. */
  lemma PartitionClauseShape(joinKeys: seq<string>)
    ensures PartitionClause(joinKeys) == "" <==> joinKeys == [] || joinKeys == [""]
    ensures joinKeys != [] && joinKeys != [""] ==>
              PartitionClause(joinKeys) == "PARTITION BY " + Join(", ", joinKeys)
  {
    JoinEmptyIff(", ", joinKeys);
  }

  /** The event column, then the created column when one is given (a `""` name counts as none). */
  function TimestampColumns(eventColumn: string, createdColumn: Option<string>): (r: seq<string>)
    ensures |r| > 0 && r[0] == eventColumn
    ensures |r| == 2 <==> Truthy(createdColumn)
    ensures |r| <= 2
    ensures |r| == 2 ==> r[1] == createdColumn.value
  {
    if Truthy(createdColumn) then [eventColumn, createdColumn.value] else [eventColumn]
  }

  /** `" DESC, ".join(cols) + " DESC"` */
  function OrderClause(timestampColumns: seq<string>): string
  {
    Join(" DESC, ", timestampColumns) + " DESC"
  }

  /** Each column with `" DESC"` appended. */
  function Descending(columns: seq<string>): (r: seq<string>)
    ensures |r| == |columns|
    ensures forall i :: 0 <= i < |r| ==> r[i] == columns[i] + " DESC"
  {
    seq(|columns|, i requires 0 <= i < |columns| => columns[i] + " DESC")
  }

  /** The order clause lists every timestamp column, in order, each followed by `DESC`. */
  lemma {:induction false} OrderClauseIsDescendingList(columns: seq<string>)
    requires |columns| > 0
    ensures OrderClause(columns) == Join(", ", Descending(columns))
  {
    if |columns| > 1 {
      OrderClauseIsDescendingList(columns[1..]);
      assert Descending(columns)[1..] == Descending(columns[1..]);
      calc {
        OrderClause(columns);
        columns[0] + " DESC, " + Join(" DESC, ", columns[1..]) + " DESC";
        (columns[0] + " DESC") + ", " + (Join(" DESC, ", columns[1..]) + " DESC");
        Descending(columns)[0] + ", " + Join(", ", Descending(columns)[1..]);
      }
    }
  }

  /** Ordering is by event time, then by created time when a created column is given. */
  lemma OrderClauseOfTimestamps(eventColumn: string, createdColumn: Option<string>)
    ensures Truthy(createdColumn) ==>
              OrderClause(TimestampColumns(eventColumn, createdColumn))
              == eventColumn + " DESC, " + createdColumn.value + " DESC"
    ensures !Truthy(createdColumn) ==>
              OrderClause(TimestampColumns(eventColumn, createdColumn)) == eventColumn + " DESC"
  {
    if Truthy(createdColumn) {
      var columns := [eventColumn, createdColumn.value];
      assert TimestampColumns(eventColumn, createdColumn) == columns;
      assert columns[1..] == [createdColumn.value];
      assert Join(" DESC, ", columns) == eventColumn + " DESC, " + createdColumn.value;
    }
  }

  /** The select list: join keys, then features, then timestamp columns. */
  function FieldList(joinKeys: seq<string>, features: seq<string>, timestampColumns: seq<string>): string
  {
    Join(", ", joinKeys + features + timestampColumns)
  }

  /** The select list keeps the three groups in order: join keys, features, timestamps. */
  lemma FieldListOrder(joinKeys: seq<string>, features: seq<string>, timestampColumns: seq<string>)
    requires |joinKeys| > 0 && |features| > 0 && |timestampColumns| > 0
    ensures FieldList(joinKeys, features, timestampColumns)
            == Join(", ", joinKeys) + ", " + (Join(", ", features) + ", " + Join(", ", timestampColumns))
  {
    var rest := features + timestampColumns;
    assert joinKeys + features + timestampColumns == joinKeys + rest;
    JoinAppend(", ", features, timestampColumns);
    JoinAppend(", ", joinKeys, rest);
  }

  /** Without join keys the select list starts directly with the features. */
  lemma FieldListOrderNoKeys(features: seq<string>, timestampColumns: seq<string>)
    requires |features| > 0 && |timestampColumns| > 0
    ensures FieldList([], features, timestampColumns)
            == Join(", ", features) + ", " + Join(", ", timestampColumns)
  {
    assert [] + features + timestampColumns == features + timestampColumns;
    JoinAppend(", ", features, timestampColumns);
  }

  /** The extra literal column that stands in for a join key when there is none. */
  function DummyColumn(joinKeys: seq<string>): (r: string)
    ensures r != "" <==> joinKeys == []
    ensures joinKeys == [] ==> r == ", '' AS __dummy_id"
  {
    if joinKeys == [] then ", " + DummyEntityLiteral + " AS " + DummyEntityId else ""
  }

  // ---------------------------------------------------------------------------
  // Query text

  /** The clauses of one snapshot query. The datetimes are kept as the text the
      compiler interpolates (`str(datetime)`). */
  datatype SnapshotQuery = SnapshotQuery(
    fieldList: string,
    dummyColumn: string,
    partition: string,
    order: string,
    fromExpression: string,
    eventColumn: string,
    startText: string,
    endText: string)

  function CompileSnapshot(
    fromExpression: string,
    joinKeys: seq<string>,
    features: seq<string>,
    eventColumn: string,
    createdColumn: Option<string>,
    startText: string,
    endText: string): (q: SnapshotQuery)
    ensures q.partition == "" <==> joinKeys == [] || joinKeys == [""]
    ensures joinKeys != [] && joinKeys != [""] ==> q.partition == "PARTITION BY " + Join(", ", joinKeys)
    ensures q.dummyColumn != "" <==> joinKeys == []
    ensures Truthy(createdColumn) ==> q.order == eventColumn + " DESC, " + createdColumn.value + " DESC"
    ensures !Truthy(createdColumn) ==> q.order == eventColumn + " DESC"
  {
    PartitionClauseShape(joinKeys);
    OrderClauseOfTimestamps(eventColumn, createdColumn);
    var timestamps := TimestampColumns(eventColumn, createdColumn);
    SnapshotQuery(
      FieldList(joinKeys, features, timestamps),
      DummyColumn(joinKeys),
      PartitionClause(joinKeys),
      OrderClause(timestamps),
      fromExpression,
      eventColumn,
      startText,
      endText)
  }

  /** Every clause of the compiled query, in terms of the compiler's inputs. */
  lemma CompiledClauses(
    fromExpression: string,
    joinKeys: seq<string>,
    features: seq<string>,
    eventColumn: string,
    createdColumn: Option<string>,
    startText: string,
    endText: string)
    ensures var q := CompileSnapshot(fromExpression, joinKeys, features, eventColumn, createdColumn, startText, endText);
            && q.fieldList == Join(", ", joinKeys + features + TimestampColumns(eventColumn, createdColumn))
            && q.dummyColumn == (if joinKeys == [] then ", '' AS __dummy_id" else "")
            && q.partition == (if joinKeys == [] || joinKeys == [""] then "" else "PARTITION BY " + Join(", ", joinKeys))
            && q.order == (if Truthy(createdColumn) then eventColumn + " DESC, " + createdColumn.value + " DESC"
                           else eventColumn + " DESC")
            && q.fromExpression == fromExpression && q.eventColumn == eventColumn
            && q.startText == startText && q.endText == endText
  {
  }

  const Indent12 := "            "
  const Indent16 := "                "

  /** The first lines: the outer select list and the dummy column line. */
  function SnapshotHeader(fieldList: string, dummyColumn: string): string {
    "\n" + Indent12 + "SELECT\n" + Indent16 + fieldList + "\n" + Indent16 + dummyColumn + "\n"
  }

  /** The window that numbers the rows of each key, latest first. */
  function RankingClause(partition: string, order: string): string {
    "ROW_NUMBER() OVER(" + partition + " ORDER BY " + order + ") AS _feast_row"
  }

  /** The inner filter on the event timestamp. */
  function WindowFilter(eventColumn: string, startText: string, endText: string): string {
    "WHERE " + eventColumn + " BETWEEN TIMESTAMP '" + startText + "' AND TIMESTAMP '" + endText + "'"
  }

  const OpenSubquery := Indent12 + "FROM (\n" + Indent16
  const NextInnerLine := "\n" + Indent16
  const CloseInnerLine := "\n" + Indent12

  /** The outer filter that keeps the first-ranked row of every key. */
  const FirstRowFilter := ")\n" + Indent12 + "WHERE _feast_row = 1\n" + Indent12

  /** A text laid out as a head, four pieces between separators, and a tail, starts with the
      head, contains every piece and ends with the tail. */
  lemma LayoutPieces(head: string, s1: string, a: string, s2: string, b: string, s3: string, c: string,
                     s4: string, d: string, s5: string, tail: string)
    ensures var r := head + s1 + a + s2 + b + s3 + c + s4 + d + s5 + tail;
            && head <= r
            && IsInfix(a, r) && IsInfix(b, r) && IsInfix(c, r) && IsInfix(d, r)
            && |r| >= |tail| && r[|r| - |tail|..] == tail
  {
    var r := head + s1 + a + s2 + b + s3 + c + s4 + d + s5 + tail;
    var upToA := head + s1 + a;
    var upToB := upToA + s2 + b;
    var upToC := upToB + s3 + c;
    var upToD := upToC + s4 + d;
    var body := upToD + s5;
    assert head <= upToA <= upToB <= upToC <= upToD <= r;
    InfixAtEnd(head + s1, a);
    InfixOfPrefix(a, upToA, r);
    InfixAtEnd(upToA + s2, b);
    InfixOfPrefix(b, upToB, r);
    InfixAtEnd(upToB + s3, c);
    InfixOfPrefix(c, upToC, r);
    InfixAtEnd(upToC + s4, d);
    InfixOfPrefix(d, upToD, r);
    assert r[|body|..] == tail;
  }

  /** The query text, with the layout of the compiler's template string: it opens with the
      select list and the dummy column line, numbers each key's rows inside a subquery over
      the source restricted to the time window, and closes by keeping the first-numbered row. */
  function RenderSnapshot(q: SnapshotQuery): (r: string)
    ensures SnapshotHeader(q.fieldList, q.dummyColumn) <= r
    ensures IsInfix("SELECT " + q.fieldList + ",\n", r)
    ensures IsInfix(RankingClause(q.partition, q.order), r)
    ensures IsInfix("FROM " + q.fromExpression + "\n", r)
    ensures IsInfix(WindowFilter(q.eventColumn, q.startText, q.endText), r)
    ensures |r| >= |FirstRowFilter| && r[|r| - |FirstRowFilter|..] == FirstRowFilter
  {
    var header := SnapshotHeader(q.fieldList, q.dummyColumn);
    var select := "SELECT " + q.fieldList + ",\n";
    var ranking := RankingClause(q.partition, q.order);
    var from := "FROM " + q.fromExpression + "\n";
    var window := WindowFilter(q.eventColumn, q.startText, q.endText);
    LayoutPieces(header, OpenSubquery, select, Indent16, ranking, NextInnerLine, from, Indent16, window,
                 CloseInnerLine, FirstRowFilter);
    header + OpenSubquery + select + Indent16 + ranking + NextInnerLine + from + Indent16 + window
      + CloseInnerLine + FirstRowFilter
  }

  // ---------------------------------------------------------------------------
  // What the query selects

  /** `WHERE event_timestamp BETWEEN start AND end` (both bounds inclusive). */
  function InWindow(rows: seq<SourceRow>, start: int, end: int): (r: seq<SourceRow>)
    ensures forall s :: s in r <==> s in rows && start <= s.eventTs <= end
    ensures |r| <= |rows|
  {
    if |rows| == 0 then []
    else
      var rest := InWindow(rows[1..], start, end);
      assert forall s :: s in rows <==> s == rows[0] || s in rows[1..];
      if start <= rows[0].eventTs <= end then [rows[0]] + rest else rest
  }

  function KeysOf(rows: seq<SourceRow>): (r: seq<seq<Value>>)
    ensures |r| == |rows| && forall i :: 0 <= i < |rows| ==> r[i] == rows[i].keys
  {
    seq(|rows|, i requires 0 <= i < |rows| => rows[i].keys)
  }

  /** The rows of one join-key group. */
  function WithKeys(rows: seq<SourceRow>, keys: seq<Value>): (r: seq<SourceRow>)
    ensures forall s :: s in r <==> s in rows && s.keys == keys
  {
    if |rows| == 0 then []
    else
      var rest := WithKeys(rows[1..], keys);
      assert forall s :: s in rows <==> s == rows[0] || s in rows[1..];
      if rows[0].keys == keys then [rows[0]] + rest else rest
  }

  /** Rank 1 of one `PARTITION BY` group. */
  function GroupTop(byCreated: bool, rows: seq<SourceRow>, keys: seq<Value>): (r: SourceRow)
    requires keys in KeysOf(rows)
    ensures r in rows && r.keys == keys
    ensures forall s :: s in rows && s.keys == keys ==> AtLeast(byCreated, r.Stamp(), s.Stamp())
  {
    var i :| 0 <= i < |rows| && KeysOf(rows)[i] == keys;
    assert rows[i] in WithKeys(rows, keys);
    Top(WithKeys(rows, keys), (s: SourceRow) => s.Stamp(), byCreated)
  }

  /** Every row's key tuple is among the key tuples of the rows. */
  lemma KeysOfCovers(rows: seq<SourceRow>, s: SourceRow)
    requires s in rows
    ensures s.keys in KeysOf(rows)
  {
    var j :| 0 <= j < |rows| && rows[j] == s;
    assert KeysOf(rows)[j] == s.keys;
  }

  /** Rank 1 of each listed key group, in the order of the list. */
  function GroupTops(byCreated: bool, rows: seq<SourceRow>, groups: seq<seq<Value>>): (r: seq<SourceRow>)
    requires forall g :: g in groups ==> g in KeysOf(rows)
    ensures KeysOf(r) == groups
    ensures forall o :: o in r ==> o in rows
    ensures forall o, s :: o in r && s in rows && s.keys == o.keys ==>
              AtLeast(byCreated, o.Stamp(), s.Stamp())
  {
    if |groups| == 0 then []
    else
      assert groups[0] in groups;
      assert forall g :: g in groups[1..] ==> g in groups;
      var top := GroupTop(byCreated, rows, groups[0]);
      var rest := GroupTops(byCreated, rows, groups[1..]);
      TopsCons(byCreated, rows, groups, top, rest);
      [top] + rest
  }

  /** Rank 1 of the first group in front of rank 1 of the other groups is rank 1 of every group. */
  lemma TopsCons(byCreated: bool, rows: seq<SourceRow>, groups: seq<seq<Value>>, top: SourceRow, rest: seq<SourceRow>)
    requires |groups| > 0
    requires top in rows && top.keys == groups[0]
    requires forall s :: s in rows && s.keys == groups[0] ==> AtLeast(byCreated, top.Stamp(), s.Stamp())
    requires KeysOf(rest) == groups[1..]
    requires forall o :: o in rest ==> o in rows
    requires forall o, s :: o in rest && s in rows && s.keys == o.keys ==> AtLeast(byCreated, o.Stamp(), s.Stamp())
    ensures KeysOf([top] + rest) == groups
    ensures forall o :: o in [top] + rest ==> o in rows
    ensures forall o, s :: o in [top] + rest && s in rows && s.keys == o.keys ==> AtLeast(byCreated, o.Stamp(), s.Stamp())
  {
    assert KeysOf([top] + rest) == [top.keys] + KeysOf(rest);
    assert groups == [groups[0]] + groups[1..];
  }

  /** `ROW_NUMBER() OVER(PARTITION BY keys ORDER BY ...) = 1`: one top row per key group. */
  function LatestPerKey(byCreated: bool, rows: seq<SourceRow>): (r: seq<SourceRow>)
    ensures NoDups(KeysOf(r))
    ensures forall s :: s in rows ==> s.keys in KeysOf(r)
    ensures forall o :: o in r ==> o in rows
    ensures forall o, s :: o in r && s in rows && s.keys == o.keys ==>
              AtLeast(byCreated, o.Stamp(), s.Stamp())
  {
    var groups := Distinct(KeysOf(rows));
    assert forall s :: s in rows ==> s.keys in groups by {
      forall s | s in rows ensures s.keys in groups {
        KeysOfCovers(rows, s);
      }
    }
    GroupTops(byCreated, rows, groups)
  }

  /** The rows the snapshot query returns for source `rows` and the window `[start, end]`. */
  function SnapshotRows(createdColumn: Option<string>, rows: seq<SourceRow>, start: int, end: int): (r: seq<SourceRow>)
    ensures forall o :: o in r ==> o in rows && start <= o.eventTs <= end
    ensures NoDups(KeysOf(r))
    ensures forall s :: s in rows && start <= s.eventTs <= end ==> s.keys in KeysOf(r)
    ensures forall o, s :: o in r && s in rows && start <= s.eventTs <= end && s.keys == o.keys ==>
              AtLeast(Truthy(createdColumn), o.Stamp(), s.Stamp())
  {
    LatestPerKey(Truthy(createdColumn), InWindow(rows, start, end))
  }

  /** Without join keys every row falls in one partition: the snapshot has at most one row. */
  lemma NoJoinKeysAtMostOneRow(createdColumn: Option<string>, rows: seq<SourceRow>, start: int, end: int)
    requires forall s :: s in rows ==> s.keys == []
    ensures |SnapshotRows(createdColumn, rows, start, end)| <= 1
  {
    var r := SnapshotRows(createdColumn, rows, start, end);
    forall i | 0 <= i < |r| ensures KeysOf(r)[i] == [] {
      assert r[i] in r;
    }
    NoDupsOfConstant(KeysOf(r), []);
  }
}
